=== FILE: README.md ===
# A Dafny model of the `jive` completion plugin for Tern

`jive.js` is a plugin for the Tern JavaScript analysis engine. It offers
completions while a user edits the definition files of the Jive dashboard
framework. These files hold JavaScript such as `_DP.Definition.Library.x = { type: 'Widget', properties: { ... } }`
or JSON bare object literals.

On a completion request the plugin does four things:

1. It finds the word typed so far.
2. It classifies the cursor position with four ordered attempts: a member
   expression, a literal, a property with a boolean or `!data` value,
   or an object literal inside a definition.
3. It resolves which component (`Widget`, `Button`, ...) the surrounding
   object literal describes. It tries the local `type`, then a
   `libraryComponentId` declared in an imported file, then the object's
   inferred type name.
4. It lists candidates from the loaded schema. The list is filtered by the
   typed word and de-duplicated first-wins.

The model follows this structure module by module:

| module | file | what it holds |
|---|---|---|
| `Wrappers` | wrappers.dfy | `Option` and `Outcome`; a JavaScript `TypeError` is `Outcome.Throws` |
| `Strings` | strings.dfy | `split`, `join`, lower-casing and `replace` on `seq<char>` |
| `Paths` | paths.dfy | `isFullPath`, `isWinPath`, `getFullPath`, `isJSONFile` |
| `Imports` | imports.dfy | `getImportFiles` and the `//@import` line syntax |
| `Words` | words.dfy | the word scan of `findCompletions` and the JSON offset shift of `preParse` / `findJiveExpression` |
| `Syntax` | syntax.dfy | the syntax tree, node paths, `infer.parentNode` and `walk.simple` order |
| `Schema` | schema.dfy | the loaded definitions, `!proto` chains and the `forAllPropertiesOf` walks |
| `Project` | project.dfy | documents, the server's file map, the request context |
| `Resolver` | resolver.dfy | `getJiveComponent`, as written and corrected |
| `Classifier` | classifier.dfy | `findJiveExpression` and its attempts, `isJiveDefinition` |
| `Gather` | gather.dfy | the de-duplicating `filterCompletion` collector |
| `Completion` | completion.dfy | `completeModuleName` and its gatherers |
| `Plugin` | plugin.dfy | the `findCompletions` handler |

The engine is outside the model, and its answers are inputs:

- Tern's position queries (`findExpressionAround`, `findNodeAround`, `findNodeBefore`) are a `Hits` record of node paths.
- `infer.parentNode` drops the last step of a path.
- The inferred type name of an object literal is a field of the `ObjectExpression` node.
- The loaded documents are a `map` from file name to document.

## Model

| member | source | states |
|---|---|---|
| Paths.GetFullPath | jive.js:38-60 | A full path (leading `/` or drive colon) is returned unchanged. Any other name is appended to the project directory. Under a drive-letter project directory every `/` of the joined path becomes `\` and no `/` remains. |
| Paths.GetFullPathIsFull | jive.js:38-60 | Resolving against a project directory that is itself a full path yields a full path. |
| Paths.GetFullPathIdempotent | jive.js:46-60 | Under such a project directory, resolving twice is resolving once. |
| Paths.JsonFileByExtension | jive.js:66-69 | A file is JSON exactly when its name ends in four characters that lower-case to `json`, and those are the whole name or follow a dot. |
| Completion.TypeName | jive.js:77-79 | The label is `object` for a missing or unnamed type and `[]` for `Array`; any other name is kept; the label is never empty. |
| Imports.ImportToken | jive.js:93-97 | The token of an import line is non-empty, has no space, and directly follows the directive. |
| Imports.ImportTokenAfterDirective | jive.js:93-97 | On a directive line the second space-separated piece is the run of non-space characters after the directive; it is empty exactly when a second space follows the directive. |
| Imports.ImportsOf | jive.js:90-101 | At most one entry per line; no import line gives `[]`; every named file follows the directive at the start of some import line. |
| Imports.GetImportFiles | jive.js:90-101 | Every file named is a non-empty token with no space or line break, found after the directive on some line of the text. |
| Imports.ImportsOfAppend | jive.js:90-101 | The entries of consecutive lines concatenate. |
| Imports.ImportFilesAppend | jive.js:90-101 | Source order: the imports of two texts joined by a line break are those of the first, then those of the second. |
| Imports.ImportFilesOfOneLine | jive.js:90-101 | A single well-formed import line yields exactly its file name. |
| Imports.MalformedImportLine | jive.js:93-97 | A directive followed by a second space is matched but yields `undefined` (`None`). |
| Words.FindWordStart | jive.js:135-146 | The word ends at the cursor, is made of identifier characters only, and cannot be extended to the left. |
| Words.AstOffset | jive.js:196-199 | In a JSON document the syntax-tree offset is the editor offset plus 27, the length of the injected declaration; elsewhere it is the editor offset. |
| Words.AstOffsetMatchesPreParse | jive.js:111-114 | The shifted offset points at the same character in the parsed text, and the injected prefix followed by the text before the cursor precedes it. |
| Project.ImportedDocument | jive.js:606 | The full-path lookup wins; the bare name is the fallback; nothing is found only when both are absent from the file map. |
| Schema.ChainFrom | jive.js:531-545 | The chain starts at the component, follows `!proto` one step at a time, and ends at a definition without a known parent unless the step bound is reached. |
| Schema.EntryNamed | jive.js:367-372 | The first entry of a group with the given name, or none when no entry has it. |
| Schema.BagSlots | jive.js:490-494 | A walk over a group visits its own entries and then the members of `Object.prototype`, which are marked as such. |
| Schema.LastDeclaredType | jive.js:297-305 | Every matching entry overwrites the type, so the type of the last match is kept; without a match the type is unchanged. |
| Resolver.FirstNonEmpty | jive.js:634-652 | The first name found, or `""` exactly when nothing is found. |
| Resolver.FirstNonEmptyAppend | jive.js:639-652 | Once a name is found, what follows cannot change it; before that, what follows decides. |
| Resolver.FirstNonEmptySkipsEmpty | jive.js:639-652 | A step that finds nothing can be dropped. |
| Resolver.PropertyValue | jive.js:589-601 | The first property with the key decides, and only its string value counts; no such property gives `""`. |
| Resolver.Contribution | jive.js:610-629 | A non-empty contribution comes only from an `x.<id> = { ... }` assignment (by id) or a `<name>: { ... }` property (by name), and is that object's own `type`. Conversely, every such assignment or property contributes its object's own `type`. |
| Resolver.FirstIn | jive.js:609-630 | The walk yields the contribution of the first node in visiting order that contributes, or `""` exactly when none does. |
| Resolver.ImportResultsAppend | jive.js:644-651 | The results of consecutive import lists concatenate. |
| Resolver.ScanImports | jive.js:644-651 | The scan finds `""` exactly when no import yields a name. A name found is what some import yields while every earlier import yields nothing. |
| Resolver.ScanFindsImport | jive.js:604-608 | A name the scan finds was written in a loaded imported document that the import list names. |
| Resolver.Resolve | jive.js:580-581 | The resolver throws exactly when asked about the root, which has no parent. |
| Resolver.IdentityIsFound | jive.js:634-655 | A resolved name is the object's own `type` or a `type` written in a loaded imported document. |
| Resolver.LocalTypeWins | jive.js:636-639 | A local `type` decides, whatever the imports and the file map hold. |
| Resolver.LibraryIdBeatsTypeName | jive.js:639-652 | When the `libraryComponentId` lookup finds a name, the object's type name plays no part. |
| Resolver.TypeNameIsTheLastResort | jive.js:648-652 | When the object has no local `type` and the `libraryComponentId` lookup finds nothing, the resolver gives exactly what the type-name scan of the imports gives. |
| Resolver.TypeNamePropertyIsFound | jive.js:620-629 | A `<name>: { type: ... }` property in an imported document is found by the type-name walk when no earlier node contributes. |
| Resolver.NothingFoundIsEmpty | jive.js:634-655 | When no strategy matches, the result is `""`. |
| Resolver.LaterImportsCannotOverride | jive.js:611 | First file wins: once the imports seen so far yield a name, further imports cannot change it. |
| Resolver.MalformedImportIsSkipped | jive.js:644 | An import entry without a file token does not change the corrected scan. |
| Resolver.InertNodeIsSkipped | jive.js:611 | A node that contributes nothing does not change the corrected walk. |
| Resolver.ContributionAsWritten | jive.js:610-614 | The id visitor as written throws exactly on an `=` assignment whose target is not a member expression, or whose target matches the id while the value is not an object literal; otherwise it agrees with the corrected visitor. |
| Resolver.ScanAsWritten | jive.js:642-651 | The scan as written throws whenever some import entry lacks its file token. |
| Resolver.FirstInAsWrittenAgrees | jive.js:609-615 | Where the walk as written returns, it returns what the corrected walk returns. |
| Resolver.ScanAsWrittenAgrees | jive.js:642-651 | Where the scan as written returns, it returns what the corrected scan returns. |
| Resolver.AsWrittenAgreesWhenItReturns | jive.js:634-655 | Where the resolver as written returns a name, the corrected resolver returns the same name. |
| Resolver.MalformedImportThrowsAsWritten | jive.js:621 | A malformed second import line makes the resolver as written throw, even though the first import is well formed. |
| Resolver.MalformedImportIgnored | jive.js:644-651 | The corrected resolver gives what the well-formed import alone gives. |
| Resolver.PlainAssignmentThrowsAsWritten | jive.js:611 | An `x = ...` assignment met while no name is found makes the walk as written throw. |
| Resolver.PlainAssignmentIgnored | jive.js:611 | The corrected walk passes over such an assignment. |
| Classifier.Chain | jive.js:201-206 | No descriptor when every attempt passes; otherwise the first attempt that does not pass decides, and a refusal gives no descriptor. |
| Classifier.ChainDecidesFirst | jive.js:201-206 | A descriptor is the match of the first attempt that does not pass. No descriptor means every attempt passed or the first deciding one refused. |
| Classifier.MemberStep | jive.js:213-235 | The member attempt passes exactly when no member expression is around the cursor. A member descriptor is the expression itself and names one of the four roots. A refusal means no root is named. The `this` descriptor is given exactly for `this.` inside a function whose enclosing definition resolves to a component, and it carries that component. |
| Classifier.RejectStopsChain | jive.js:230-231 | A member expression not naming a root, outside a definition function's `this`, ends the request with no completions, whatever the later attempts would find. |
| Classifier.LiteralStep | jive.js:254-266 | The literal attempt matches exactly when a literal is around the cursor and some node ends just after it; it then hands over that node; it never refuses. |
| Classifier.LiteralBeatsLaterAttempts | jive.js:193-206 | When the member attempt passes and the literal attempt matches, the literal attempt decides and the object-literal query plays no part. |
| Classifier.ClimbStep | jive.js:245-247 | One round goes up two levels to the property holding the enclosing object literal. It throws only at the root. |
| Classifier.ClimbFindsAncestor | jive.js:237-251 | A component found by the climb is what `getJiveComponent` says about the node `2k` levels above the starting property, for some round `k` within the bound. |
| Classifier.ClimbStopsAfterFourRounds | jive.js:243 | The climb makes four rounds: a component first reached in the fifth round is not found, and one more round would find it. |
| Classifier.ClimbThrowsAsWritten | jive.js:243-248 | A `this.` in a function of an object literal assigned to a plain variable makes the climb as written throw, while the corrected climb yields `""`. |
| Classifier.ClimbAgreesWhenSourceReturns | jive.js:237-251 | Where the climb as written returns, the corrected climb returns the same; the corrected climb throws only where the source does. |
| Classifier.GroupFor | jive.js:291-292 | `settings` reads the `defaultSettings` group; any other key reads its own group. |
| Classifier.DeclaredType | jive.js:290-308 | The request throws exactly for an unknown component. A declared type is that of the last entry with the key along the chain's groups. |
| Classifier.DataStep | jive.js:323-350 | A `!data` descriptor comes from the component's own entry for the key. Its path has two segments: a known component and one of its groups, whose entries are the descriptor's. The step never refuses. It matches exactly when the key's own entry has such a path. |
| Classifier.PropertyStep | jive.js:269-286 | The property attempt never refuses; when it matches, it hands over a boolean or a `!data` descriptor. |
| Classifier.IsJiveDefinition | jive.js:168-188 | A node is part of a definition only if it is an assignment to `_DP.Definition.<x>.<y>` or a property. An assignment is one exactly when its target is such a member expression. A property below the root is one; at the root the resolver throws. |
| Classifier.ParentStep | jive.js:374-385 | A match hands over the node just above the object literal around the cursor; the step never refuses. It matches exactly when that node is part of a definition, and throws exactly when the literal is the root or the definition test throws. |
| Classifier.BoolSlotIsRecognised | jive.js:269-318 | The property attempt gives the boolean descriptor exactly for a property of an object literal held by a property of a resolved component, when the schema declares the key `bool` in the holder's group. |
| Classifier.DataTableIsRecognised | jive.js:323-350 | The `!data` descriptor is given exactly when the component's own entry for the key names a two-segment path to a known component's group, and it carries that group's entries. |
| Classifier.JsonCursorIsShifted | jive.js:196-199 | In a JSON document the engine is asked about the offset that holds, in the parsed text, the character at the cursor. |
| Gather.Pick | jive.js:505-508 | The picked positions are in range and strictly increasing, so items keep callback order. |
| Gather.PickedAreFirstUnseen | jive.js:505-508 | Every picked candidate is the first eligible one with its key, and its key was not in the table at the start. |
| Gather.PickIsComplete | jive.js:505-508 | Every eligible candidate with a key not in the starting table has its key listed. |
| Gather.PickedKeysDiffer | jive.js:505-508 | No key is listed twice. |
| Gather.PickedIffFirstUnseen | jive.js:505-508 | A candidate is listed exactly when it is the first eligible one with its key and that key is not an `Object.prototype` name. |
| Gather.Listed | jive.js:505-508 | The listed items are the items of the picked candidates, in order. |
| Completion.GetName | jive.js:461-463 | Outside JSON the key is its own completion. In JSON it is quoted and followed by `": `, and the key can be read back. |
| Completion.GetNameIsInjective | jive.js:461-463 | Two keys never share a completion text. |
| Completion.EntryItem | jive.js:500-505 | The label of an entry's item is the entry's key, the name is the key in completion form, the type is the entry's type label and the documentation is the entry's. |
| Completion.SlotItems | jive.js:490-511 | Every item is from an offered slot whose key is not an `Object.prototype` name. No label is listed twice. Every offered key is listed. |
| Completion.ListedSlotsAreOffered | jive.js:492-494 | Nothing from `Object.prototype` and nothing not starting with the word is listed. |
| Completion.ListedLabelsDiffer | jive.js:507-510 | The `filterCompletion` table keeps every label unique. |
| Completion.OfferedSlotsAreListed | jive.js:507-510 | Every offered key other than an `Object.prototype` name is listed. |
| Completion.SlotItemsFirstWins | jive.js:507-510 | The entry listed for a key is the first offered slot with that key. |
| Completion.SlotItemsNarrow | jive.js:492 | Typing more narrows the list: what is listed for a longer word is listed for the shorter one. |
| Completion.SlotItemsStartWithWord | jive.js:492-494 | Every label of a schema walk starts with the word and is not an `Object.prototype` name. |
| Completion.JiveGroup | jive.js:397-398 | The group is read from `JiveDefinition`; a missing definition or group makes the request throw. |
| Completion.ComponentGroup | jive.js:531-545 | Only `properties`, `settings` and `prototype` have a group; `settings` reads `defaultSettings`. |
| Completion.ForComponent | jive.js:531-545 | Both directions: a non-empty walk needs a known non-empty component and a key with a group, and for such a component and key the walk is exactly that group's slots along the whole proto chain, whether or not the component declares the group itself. |
| Completion.OwnGroupLeads | jive.js:531-545 | A component's own group comes first in the walk along its chain. |
| Completion.OwnEntryShadowsParents | jive.js:531-545 | Most-derived wins: the first entry with a key in the component's own group is listed for that key, whatever its parents declare. |
| Completion.ChainSlotOf | jive.js:531-545 | The walk visits the proto chain in order: entry `j` of the group on the `k`-th definition comes right after the slots of the definitions before it, followed by the earlier entries of its own group. |
| Completion.InheritedEntryIsOffered | jive.js:531-545 | An entry inherited from any definition on the proto chain is listed when it matches the word, is not an `Object.prototype` name, and nothing offered before it in the walk has its key. |
| Completion.ForObjectExpression | jive.js:559-576 | The request throws when there is no grandparent. A non-empty result is made of the members of the literal's key entries. These are taken from the groups named by the grandparent property's key, along the chain of the component resolved at the grandparent. An unresolved grandparent gives no items. |
| Completion.ObjectExpressionWalksGroup | jive.js:559-576 | Inside `<g>: { <key>: {...} }` of a resolved component, the result is the members of the entries named like the key, in the `<g>` groups along the component's chain. |
| Completion.KeyEntryMembersAreVisited | jive.js:559-576 | There, every member of the component's own `<g>` entry for the key is offered. |
| Completion.ComponentNames | jive.js:475-488 | Component names in definition order, without `JiveDefinition` or an `Object.prototype` name, starting with the word. Each is listed once, and every such name is listed. Names appear in the order of their first position in the definition table. |
| Completion.ComponentNamesInOrder | jive.js:475-488 | Listed names keep the enumeration order of the definition table. |
| Completion.BoolItems | jive.js:547-557 | `true` then `false`, both typed `bool`, exactly when the word is empty; nothing otherwise. |
| Completion.DataItems | jive.js:465-473 | One item per constant of the table, unfiltered, named `_DP.ComponentTypes.<table>.<constant>` and typed by the constant's type. |
| Completion.DataItemEndsWithConstant | jive.js:468 | The constant's name is the last dotted segment of its completion. |
| Completion.IdForKey | jive.js:404-411 | After a `components` key with nothing typed, a single item: the label is the generated id and the name is its completion form. Otherwise nothing. |
| Completion.IdForMember | jive.js:445-452 | After a member expression with nothing typed, a single item: the name is the bare id and the label is its completion form. Otherwise nothing. |
| Completion.CompletionsMatchWord | jive.js:389-458 | Every list other than a `!data` table's has labels that start with the typed word, each listed once. |
| Completion.ForPropertyMatchesWord | jive.js:400-434 | The property lists have labels that start with the word, each listed once. |
| Completion.LibraryItemsMatchWord | jive.js:419-420 | The `Library` fallback list has labels that start with the word, each listed once. |
| Completion.ForSchemaPropertyMatchesWord | jive.js:419-433 | The schema-driven property lists have labels that start with the word, each listed once. |
| Completion.LibraryIsTheFallback | jive.js:428-432 | Inside a nested object literal the `Library` groups are offered exactly when the entry the literal belongs to offers nothing. |
| Completion.DataItemsIgnoreWord | jive.js:436-437 | The constants of a `!data` table are offered whatever has been typed. |
| Completion.ThisOffersOwnPrototype | jive.js:442-443 | After `this.`, the first entry with a key in the component's own `prototype` group is offered, whatever its parents declare. |
| Completion.DefinitionAssignmentListsGroup | jive.js:396-398 | Inside `_DP.Definition.<group>.<name> = {...}` the request succeeds exactly when `JiveDefinition` has that group. Every item is then the item of an entry of that group whose key starts with the word and is not an `Object.prototype` name, and every such key is listed. |
| Completion.Complete | jive.js:389-458 | The request fails only on a node descriptor, and only for an assignment or a property; `this`, boolean and `!data` descriptors always get a list. |
| Completion.TypeKeyListsComponentNames | jive.js:401-402 | After a `type` key the list is the component names for the word. |
| Completion.ComponentsKeyOffersId | jive.js:404-411 | After a `components` key the list is the generated-id item, offered only when nothing is typed. |
| Completion.StyleKeyListsCss | jive.js:413-417 | After a `style` or `bodyStyle` key every item is a CSS style entry starting with the word, and every such entry is listed. |
| Completion.ComponentsParentListsLibrary | jive.js:419-420 | A property of an object literal typed `components` is offered the `Library` groups: exactly their entries for the word. |
| Completion.ComponentKeyOffersOwnEntry | jive.js:423-427 | For a property of a resolved component, the first entry with a key in the component's own group for that property is offered, whatever its parents declare. |
| Completion.ComponentKeyOffersInheritedEntry | jive.js:423-427 | For a property of a resolved component, an entry of the group on any definition of its proto chain is offered when nothing offered before it in the walk has its key; a component that declares only its parent gets the parent's entries. |
| Completion.BoolSlotListsBoolItems | jive.js:439-440 | A boolean slot gets `true` and `false` before anything is typed. |
| Completion.MemberExpressionOffersId | jive.js:445-452 | After a member expression the list is the generated-id item, offered only when nothing is typed. |
| Plugin.Names | jive.js:160-162 | Without detail flags, one name per item, in order. |
| Plugin.FindCompletions | jive.js:134-164 | No answer exactly when the classifier finds no descriptor, and a classifier exception propagates. An answer spans the maximal identifier word ending at the cursor and lists what the generator gives for that word, detailed or by name. |

## Left out

- The Tern and Acorn engines are not modelled. This covers `infer.findExpressionAround`, `walk.findNodeAround`, `walk.findNodeBefore`, `getType`, `tern.resolvePos` and the parser. Their answers are inputs (`Hits`, the syntax tree, the inferred type names).
- `infer.parentNode` and `walk.simple` are modelled by their effect: the parent is one path step up, and visiting is post-order.
- `tern.outputPos` is left out. The response carries the offsets of the word; the conversion to line and column is not modelled.
- Plugin registration, the `postParse` hook and `server.addFile` are left out because they are input/output. Documents are already in the file map.
- The `preParse` hook is modelled only as the text the parser reads (`Words.PreParse`).
- `generateComponentId` uses `Math.random`, so the generated id is a parameter.
- The `console.log` of jive.js:424 is left out; it has no effect on the result.
- The `isProperty` and `isObjectKey` flags of the response are always `true` and are not kept.
- `isNodeValueEmpty`, `isPropertyValueEmpty` and `isNodeJs` are not modelled: nothing in the request path calls them.
- The bulk schema tables `defs` and `defs_css` are data, not logic. The schema is an abstract `Registry`.
- Schema.ProtoChain: the `!proto` walk is bounded by the number of definitions. A cyclic chain, which the schema never has, would be cut there.
- Resolver.PropertyValue: a `type` or `libraryComponentId` whose value is a non-string literal, such as a number, counts as no name. The source would use that value.
- Resolver.Contribution: an object type without a name is compared by `""` here, where the source compares `undefined` with the key's `name`. Because `undefined === undefined`, for an object literal with an unnamed type the source's type-name walk accepts every object-valued property with a string-literal key in any import, such as any key of a JSON import, and takes the `type` written in it; the model accepts no such property.
- Classifier.IsJiveDefinition: the resolver is called with the property's `sourceFile`, which this model takes to be the document being edited.
- Classifier.DataStep: only `!data` paths of two segments (`Component.TABLE`) are followed, which are the only ones the definitions use. A one-segment path or a deeper path passes to the next attempt.
- Completion.DataItems: the table's name in the completion is its `!data` path, taken as the name Tern gives that object.
- Completion.ForObjectExpression: entries of type `string`, `number` and the like contribute no members, because the walk over a primitive type's prototype is not modelled.
- Completion.ForComponent: group and component names that collide with `Object.prototype` members are not modelled.
- Words.FindWordStart: identifier characters are ASCII letters, digits, `$` and `_`. Unicode identifier characters are not recognised.
- The `!data` completion list is not filtered by the typed word, although a general description of the plugin would have every list filtered. The model follows the code, see Completion.DataItemsIgnoreWord.
- Classifier, Completion and Plugin are built on the corrected resolver (`Resolver.IdentityOf`) and the corrected climb (`Classifier.Climb`) of the Findings below. On the three inputs listed there, `Plugin.FindCompletions` returns an answer where jive.js throws a `TypeError`.
- The resolver consults the documents named by the editing document's own `//@import` lines only, not imports of imports. The model follows the code.

## Findings

| source | as written | input that shows it | evidently intended | confidence | as-written member | corrected member |
|---|---|---|---|---|---|---|
| jive.js:621 | `getFullPath(importFileName)` in `getComponentFromObjectPropertyName` (and likewise at jive.js:606 in `getComponentFromLibraryComponentId`) runs on every entry of `getImportFiles`, including the `undefined` of a directive line followed by two spaces; `uri.charAt` on `undefined` throws | a document whose import lines are `//@import a.js` and `//@import  b.js`, with a property of an object literal lacking `type` | malformed import lines are skipped | medium, not executed | Resolver.MalformedImportThrowsAsWritten | Resolver.MalformedImportIgnored |
| jive.js:611 | the `libraryComponentId` walk reads `expr.left.property.type` on every `=` assignment; for `x = ...` the target has no `property` and the read throws | an imported document containing `x = 1;`, looked up through a `libraryComponentId` | assignments to plain variables are passed over | medium, not executed | Resolver.PlainAssignmentThrowsAsWritten | Resolver.PlainAssignmentIgnored |
| jive.js:243-248 | `_getJiveComponent` keeps climbing after a round without an object literal above, and asks `infer.parentNode` about `null`, which throws | `x = { init: function () { this. } }` with the cursor after `this.` | the climb stops when there is nothing above | medium, not executed | Classifier.ClimbThrowsAsWritten | Classifier.ClimbAgreesWhenSourceReturns |

=== FILE: classifier.dfy ===
/** The position classifier `findJiveExpression` (jive.js lines 192-386).

    Four attempts run in a fixed order, and the first one that does not simply
    pass decides:
      1. `getMemberExpr`: a member expression around the cursor;
      2. `getValueForTypeProperty`: a literal (string, number, boolean, `null` or regular expression) around the cursor;
      3. `getValueForProperty`: a property whose value is a boolean or a
         constant from a `!data` table;
      4. `getParentNode`: the node holding the object literal around the cursor,
         when it is part of a definition.
    Attempt 1 can also refuse (`NO_JIVE_EXPRESSION`): the chain stops and the
    request gets no completions. A JavaScript exception thrown by an attempt
    ends the request; it is an `Outcome.Throws` here.

    Tern's position queries are inputs: `Hits` holds their answers at the
    offset the classifier asks about.
 */
module Classifier {
  import opened Wrappers
  import opened Strings
  import opened Syntax
  import opened Schema
  import opened Project
  import opened Resolver
  import opened Words
  import opened Paths

  /** The definition roots a member expression must name (`OBJ_SITES`, ...). */
  const Roots: set<string> := {"Sites", "Constructs", "Packages", "Library"}

  const Settings: string := "settings"
  const DefaultSettings: string := "defaultSettings"

  /** `infer.findExpressionAround` also reports the scope it found the node in:
      whether that scope is a function's, and the function node. */
  datatype ScopedHit = ScopedHit(path: Path, inFunction: bool, origin: Path)

  /** The engine's answers at one syntax-tree offset. */
  datatype Hits = Hits(
    memberAround: Option<ScopedHit>,  // findExpressionAround(..., 'MemberExpression')
    nodeAround: Option<Path>,         // walk.findNodeAround(ast, pos)
    nodeBefore: Option<Path>,         // walk.findNodeBefore(ast, pos + 1)
    objectAround: Option<Path>)       // findExpressionAround(..., 'ObjectExpression')

  /** What the classifier hands to the completion generator. */
  datatype Descriptor =
    | NodeDescriptor(path: Path)                        // a syntax node
    | ThisDescriptor(component: string)                 // JIVE_THIS_EXPRESSION
    | BoolDescriptor                                    // JIVE_BOOL_EXPRESSION
    | DataDescriptor(table: string, entries: seq<Entry>) // JIVE_KEY_VALUE_DATA_EXPRESSION

  /** The result of one attempt: a truthy descriptor, a falsy result, or the
      truthy `NO_JIVE_EXPRESSION` sentinel. */
  datatype Step = Match(descriptor: Descriptor) | Continue | Reject

  /** What a deciding attempt makes of the whole request. */
  function Verdict(s: Outcome<Step>): Outcome<Option<Descriptor>> {
    match s
    case Throws(e) => Throws(e)
    case Ok(Match(d)) => Ok(Some(d))
    case Ok(_) => Ok(None)
  }

  /** Attempt `k` is the first that does not pass. */
  predicate Decides(steps: seq<Outcome<Step>>, k: int) {
    0 <= k < |steps| && steps[k] != Ok(Continue) && forall j :: 0 <= j < k ==> steps[j] == Ok(Continue)
  }

  /** The loop of `findJiveExpression` over the attempts' results. The
      attempts are pure, so evaluating all of them up front changes nothing. */
  function Chain(steps: seq<Outcome<Step>>): (r: Outcome<Option<Descriptor>>)
    ensures (forall j :: 0 <= j < |steps| ==> steps[j] == Ok(Continue)) ==> r == Ok(None)
    ensures forall k :: Decides(steps, k) ==> r == Verdict(steps[k])
    decreases |steps|
  {
    if steps == [] then Ok(None)
    else if steps[0] != Ok(Continue) then Verdict(steps[0])
    else
      var r := Chain(steps[1..]);
      assert forall k :: Decides(steps, k) ==> k > 0 && Decides(steps[1..], k - 1) by {
        forall k | Decides(steps, k) ensures k > 0 && Decides(steps[1..], k - 1) {
          assert steps[1..][k - 1] == steps[k];
        }
      }
      r
  }

  predicate IsObjectAt(ast: Node, p: Path) {
    NodeAt(ast, p).Some? && NodeAt(ast, p).value.ObjectExpression?
  }

  // ---------------------------------------------------------------------------
  // Attempt 1: member expressions, and `this` inside a definition's function

  /** One round of `_getJiveComponent`'s climb from a property: the object
      literal above it and the property holding that literal (`None` when the
      node above is not an object literal). */
  function ClimbStep(ast: Node, property: Path): (r: Outcome<Option<Path>>)
    ensures r.Throws? <==> (|property| == 0 || (|property| == 1 && IsObjectAt(ast, [])))
    ensures r.Ok? && r.value.Some? ==> |property| >= 2 && r.value.value == property[..|property| - 2]
  {
    var objExpr :- ParentPath(property);
    if IsObjectAt(ast, objExpr) then
      var holder :- ParentPath(objExpr);
      Ok(Some(holder))
    else Ok(None)
  }

  /** `_getJiveComponent`'s loop, corrected: at most `rounds` rounds, each
      resolving the property that holds the enclosing object literal; the climb
      ends when the node above is not an object literal. */
  function Climb(ast: Node, resolve: Path -> Outcome<string>, property: Option<Path>, rounds: nat): Outcome<string>
    decreases rounds
  {
    if rounds == 0 then Ok("")
    else
      match property
      case None => Ok("")
      case Some(p) =>
        var holder :- ClimbStep(ast, p);
        var component :- if holder.Some? then resolve(holder.value) else Ok("");
        if component != "" then Ok(component) else Climb(ast, resolve, holder, rounds - 1)
  }

  /** `_getJiveComponent`'s loop as written: after a round without an object
      literal above, the next round asks `infer.parentNode` about `null`. */
  function ClimbAsWritten(ast: Node, resolve: Path -> Outcome<string>, property: Option<Path>, rounds: nat): Outcome<string>
    decreases rounds
  {
    if rounds == 0 then Ok("")
    else
      match property
      case None => Throws("infer.parentNode(null)")
      case Some(p) =>
        var holder :- ClimbStep(ast, p);
        var component :- if holder.Some? then resolve(holder.value) else Ok("");
        if component != "" then Ok(component) else ClimbAsWritten(ast, resolve, holder, rounds - 1)
  }

  /** `getJiveComponent` in the request's document, as the climb consults it. */
  function ResolverOf(ctx: Context): Path -> Outcome<string> {
    p => Resolve(ctx.server, ctx.doc, p)
  }

  /** `while (++depth < 5 && ...)`: four rounds. */
  const ClimbRounds: nat := 4

  /** `_getJiveComponent(originNode)`: the component whose definition holds the
      function the cursor is in, starting from the node above the function. */
  function ThisComponent(ctx: Context, origin: Path): Outcome<string> {
    var property :- ParentPath(origin);
    Climb(ctx.doc.ast, ResolverOf(ctx), Some(property), ClimbRounds)
  }

  function ThisComponentAsWritten(ctx: Context, origin: Path): Outcome<string> {
    var property :- ParentPath(origin);
    ClimbAsWritten(ctx.doc.ast, ResolverOf(ctx), Some(property), ClimbRounds)
  }

  /** `node.obj.property.name` is one of the roots. */
  predicate NamesRoot(obj: Node) {
    obj.MemberExpression? && obj.property.Identifier? && obj.property.name in Roots
  }

  /** `this.` inside a function, where the climb from the function finds a
      component. */
  predicate ThisHit(ctx: Context, hit: Option<ScopedHit>) {
    && hit.Some? && hit.value.inFunction
    && NodeAt(ctx.doc.ast, hit.value.path).Some?
    && NodeAt(ctx.doc.ast, hit.value.path).value.MemberExpression?
    && NodeAt(ctx.doc.ast, hit.value.path).value.obj == ThisExpression
    && ThisComponent(ctx, hit.value.origin).Ok? && ThisComponent(ctx, hit.value.origin).value != ""
  }

  /** `getMemberExpr`. */
  function MemberStep(ctx: Context, hit: Option<ScopedHit>): (r: Outcome<Step>)
    ensures r == Ok(Continue) <==>
      || hit.None?
      || NodeAt(ctx.doc.ast, hit.value.path).None?
      || !NodeAt(ctx.doc.ast, hit.value.path).value.MemberExpression?
    ensures r.Ok? && r.value.Match? && r.value.descriptor.NodeDescriptor? ==>
      r.value.descriptor.path == hit.value.path && NamesRoot(NodeAt(ctx.doc.ast, hit.value.path).value.obj)
    ensures r == Ok(Reject) ==> !NamesRoot(NodeAt(ctx.doc.ast, hit.value.path).value.obj)
    ensures (r.Ok? && r.value.Match? && r.value.descriptor.ThisDescriptor?) <==> ThisHit(ctx, hit)
    ensures ThisHit(ctx, hit) ==> r == Ok(Match(ThisDescriptor(ThisComponent(ctx, hit.value.origin).value)))
  {
    match hit
    case None => Ok(Continue)
    case Some(h) =>
      match NodeAt(ctx.doc.ast, h.path)
      case Some(MemberExpression(obj, _)) =>
        var self :- if h.inFunction && obj == ThisExpression then ThisComponent(ctx, h.origin) else Ok("");
        if self != "" then Ok(Match(ThisDescriptor(self)))
        else if NamesRoot(obj) then Ok(Match(NodeDescriptor(h.path)))
        else Ok(Reject)
      case _ => Ok(Continue)
  }

  // ---------------------------------------------------------------------------
  // Attempt 2: a literal

  /** `getValueForTypeProperty`: inside a literal, the node ending just after
      the cursor. */
  function LiteralStep(ctx: Context, around: Option<Path>, before: Option<Path>): (r: Step)
    ensures r.Match? <==>
      && around.Some? && NodeAt(ctx.doc.ast, around.value).Some?
      && NodeAt(ctx.doc.ast, around.value).value.Literal? && before.Some?
    ensures r.Match? ==> r.descriptor == NodeDescriptor(before.value)
    ensures !r.Reject?
  {
    match around
    case Some(p) =>
      (match NodeAt(ctx.doc.ast, p)
       case Some(Literal(_)) =>
         (match before
          case Some(b) => Match(NodeDescriptor(b))
          case None => Continue)
       case _ => Continue)
    case None => Continue
  }

  // ---------------------------------------------------------------------------
  // Attempt 3: a boolean slot or a `!data` slot

  /** `keyName === PROPERTY_SETTINGS ? PROPERTY_DEFAULT_SETTINGS : keyName`. */
  function GroupFor(keyName: Option<string>): (g: Option<string>)
    ensures g.None? <==> keyName.None?
    ensures keyName == Some(Settings) ==> g == Some(DefaultSettings)
    ensures keyName.Some? && keyName.value != Settings ==> g == keyName
  {
    match keyName
    case Some(k) => if k == Settings then Some(DefaultSettings) else Some(k)
    case None => None
  }

  /** `getPropertyType`: the declared type of `key` in the groups named
      `group` along the component's proto chain. Every match overwrites the
      previous one, so the least-derived declaration wins. */
  function DeclaredType(reg: Registry, component: string, group: Option<string>, key: Node): (r: Outcome<Option<TypeRef>>)
    ensures r.Throws? <==> component !in reg.defs
    ensures r.Ok? && r.value.Some? ==>
      && group.Some?
      && var slots := ChainSlots(reg, component, group.value);
        exists i :: 0 <= i < |slots| && KeyIs(key, slots[i].entry.name) && r.value == slots[i].entry.ty
          && forall j :: i < j < |slots| ==> !KeyIs(key, slots[j].entry.name)
  {
    if component !in reg.defs then Throws("forAllPropertiesOf(undefined)")
    else
      match group
      case None => Ok(None)
      case Some(g) => Ok(LastDeclaredType(ChainSlots(reg, component, g), key, None))
  }

  /** `getPropertyValueDataType`: the constant table an entry's `!data` names,
      read from the component's own definition (not its parents). */
  function DataStep(reg: Registry, component: string, group: Option<string>, key: Node): (r: Outcome<Step>)
    ensures r.Ok? && r.value.Match? ==>
      && r.value.descriptor.DataDescriptor?
      && component in reg.defs && group.Some?
      && OwnBag(reg.defs[component], group.value).Some?
      && KeyName(key).Some?
      && var e := EntryNamed(OwnBag(reg.defs[component], group.value).value, KeyName(key).value);
        && e.Some? && e.value.data == Some(r.value.descriptor.table)
        && var segments := Split(r.value.descriptor.table, {'.'});
          && |segments| == 2 && segments[0] in reg.defs
          && OwnBag(reg.defs[segments[0]], segments[1]) == Some(r.value.descriptor.entries)
    ensures !(r.Ok? && r.value.Reject?)
    ensures (r.Ok? && r.value.Match?) <==> NamesSomeDataTable(reg, component, group, key)
  {
    if component !in reg.defs then Throws("def[jiveComponent] is undefined")
    else
      var bag := if group.Some? then OwnBag(reg.defs[component], group.value) else None;
      var entry := if bag.Some? && KeyName(key).Some? then EntryNamed(bag.value, KeyName(key).value) else None;
      if entry.None? || entry.value.data.None? || entry.value.data.value == "" then Ok(Continue)
      else
        var path := entry.value.data.value;
        var segments := Split(path, {'.'});
        var head := segments[0];
        if head == "" || head !in reg.defs || |segments| != 2 then Ok(Continue)
        else
          match OwnBag(reg.defs[head], segments[1])
          case None => Throws("aType.props[mappedPath[i]] is undefined")
          case Some(entries) => Ok(Match(DataDescriptor(path, entries)))
  }

  /** `getValueForProperty`: the cursor is on a property of an object literal
      that is the value of a property of a resolved component. */
  function PropertyStep(ctx: Context, around: Option<Path>): (r: Outcome<Step>)
    ensures r.Ok? ==> !r.value.Reject?
    ensures r.Ok? && r.value.Match? ==> r.value.descriptor.BoolDescriptor? || r.value.descriptor.DataDescriptor?
  {
    var ast := ctx.doc.ast;
    match around
    case None => Ok(Continue)
    case Some(p) =>
      match NodeAt(ast, p)
      case Some(Property(key, _)) =>
        var objExpr :- ParentPath(p);
        if !IsObjectAt(ast, objExpr) then Ok(Continue)
        else
          var holder :- ParentPath(objExpr);
          var component :- Resolve(ctx.server, ctx.doc, holder);
          if component == "" then Ok(Continue)
          else
            var holderNode := NodeAt(ast, holder);
            if holderNode.None? || !holderNode.value.Property? then Throws("parentProperty.key is undefined")
            else
              var group := GroupFor(KeyName(holderNode.value.key));
              var ty :- DeclaredType(ctx.reg, component, group, key);
              if ty == Some(TypeRef("bool")) then Ok(Match(BoolDescriptor))
              else DataStep(ctx.reg, component, group, key)
      case _ => Ok(Continue)
  }

  /** The `getBoolType` case: the cursor is on a property of an object literal
      held by a property of a resolved component, and the key's declared type
      in that group along the chain is `bool`. */
  predicate BoolSlot(ctx: Context, around: Option<Path>) {
    && around.Some? && |around.value| >= 2
    && var p := around.value;
      && var ast := ctx.doc.ast;
        && NodeAt(ast, p).Some? && NodeAt(ast, p).value.Property?
        && IsObjectAt(ast, p[..|p| - 1])
        && var holder := p[..|p| - 2];
          && Resolve(ctx.server, ctx.doc, holder).Ok? && Resolve(ctx.server, ctx.doc, holder).value != ""
          && NodeAt(ast, holder).Some? && NodeAt(ast, holder).value.Property?
          && DeclaredType(ctx.reg, Resolve(ctx.server, ctx.doc, holder).value,
               GroupFor(KeyName(NodeAt(ast, holder).value.key)), NodeAt(ast, p).value.key)
             == Ok(Some(TypeRef("bool")))
  }

  /** Attempt 3 offers the boolean literals exactly in a `bool` slot. */
  lemma BoolSlotIsRecognised(ctx: Context, around: Option<Path>)
    ensures PropertyStep(ctx, around) == Ok(Match(BoolDescriptor)) <==> BoolSlot(ctx, around)
  {
    if BoolSlot(ctx, around) {
      BoolSlotMatches(ctx, around);
    }
    if PropertyStep(ctx, around) == Ok(Match(BoolDescriptor)) {
      BoolMatchIsSlot(ctx, around);
    }
  }

  lemma BoolSlotMatches(ctx: Context, around: Option<Path>)
    requires BoolSlot(ctx, around)
    ensures PropertyStep(ctx, around) == Ok(Match(BoolDescriptor))
  {
    var p := around.value;
    var objExpr := p[..|p| - 1];
    assert ParentPath(p) == Ok(objExpr);
    assert objExpr[..|objExpr| - 1] == p[..|p| - 2];
    assert ParentPath(objExpr) == Ok(p[..|p| - 2]);
    var holder := p[..|p| - 2];
    var key := NodeAt(ctx.doc.ast, p).value.key;
    var group := GroupFor(KeyName(NodeAt(ctx.doc.ast, holder).value.key));
    assert DeclaredType(ctx.reg, Resolve(ctx.server, ctx.doc, holder).value, group, key) == Ok(Some(TypeRef("bool")));
  }

  lemma BoolMatchIsSlot(ctx: Context, around: Option<Path>)
    requires PropertyStep(ctx, around) == Ok(Match(BoolDescriptor))
    ensures BoolSlot(ctx, around)
  {
    var ast := ctx.doc.ast;
    var p := around.value;
    var key := NodeAt(ast, p).value.key;
    var objExpr := ParentPath(p).value;
    var holder := ParentPath(objExpr).value;
    assert objExpr == p[..|p| - 1] && holder == p[..|p| - 2];
  }

  /** The key's own entry in the component's group has a `!data` path of two
      segments, a known component and one of its own groups. */
  predicate NamesSomeDataTable(reg: Registry, component: string, group: Option<string>, key: Node) {
    && component in reg.defs && group.Some? && KeyName(key).Some?
    && OwnBag(reg.defs[component], group.value).Some?
    && var e := EntryNamed(OwnBag(reg.defs[component], group.value).value, KeyName(key).value);
      && e.Some? && e.value.data.Some?
      && var segments := Split(e.value.data.value, {'.'});
        && |segments| == 2 && segments[0] != "" && segments[0] in reg.defs
        && OwnBag(reg.defs[segments[0]], segments[1]).Some?
  }

  /** The `getPropertyValueDataType` case: the key's own entry in the
      component's group names, by `!data`, the own group `entries` of another
      known component, as `<component>.<group>`. */
  predicate NamesDataTable(reg: Registry, component: string, group: Option<string>, key: Node, path: string, entries: seq<Entry>) {
    && component in reg.defs && group.Some? && KeyName(key).Some?
    && OwnBag(reg.defs[component], group.value).Some?
    && var e := EntryNamed(OwnBag(reg.defs[component], group.value).value, KeyName(key).value);
      && e.Some? && e.value.data == Some(path)
      && var segments := Split(path, {'.'});
        && |segments| == 2 && segments[0] != "" && segments[0] in reg.defs
        && OwnBag(reg.defs[segments[0]], segments[1]) == Some(entries)
  }

  /** The `!data` lookup yields a table exactly when the entry names one. */
  lemma DataTableIsRecognised(reg: Registry, component: string, group: Option<string>, key: Node, path: string, entries: seq<Entry>)
    ensures DataStep(reg, component, group, key) == Ok(Match(DataDescriptor(path, entries)))
      <==> NamesDataTable(reg, component, group, key, path, entries)
  {
  }

  // ---------------------------------------------------------------------------
  // Attempt 4: the object literal around the cursor

  /** `_DP.Definition.<x>.<y>` as an assignment target. */
  predicate IsDefinitionTarget(left: Node) {
    && left.MemberExpression?
    && left.obj.MemberExpression?
    && left.obj.obj.MemberExpression?
    && left.obj.obj.obj == Identifier("_DP")
    && left.obj.obj.property == Identifier("Definition")
  }

  /** `isJiveDefinition`. For a property the resolver runs only for its
      exceptions: the property's key is always truthy. */
  function IsJiveDefinition(ctx: Context, p: Path): (r: Outcome<bool>)
    ensures r == Ok(true) ==>
      && NodeAt(ctx.doc.ast, p).Some?
      && var n := NodeAt(ctx.doc.ast, p).value;
        (n.AssignmentExpression? && IsDefinitionTarget(n.left)) || n.Property?
    ensures NodeAt(ctx.doc.ast, p).Some? && NodeAt(ctx.doc.ast, p).value.AssignmentExpression? ==>
      r == Ok(IsDefinitionTarget(NodeAt(ctx.doc.ast, p).value.left))
    ensures NodeAt(ctx.doc.ast, p).Some? && NodeAt(ctx.doc.ast, p).value.Property? ==>
      (p != [] ==> r == Ok(true)) && (p == [] ==> r.Throws?)
    ensures r.Throws? ==> p == []
  {
    match NodeAt(ctx.doc.ast, p)
    case Some(AssignmentExpression(_, left, _)) => Ok(IsDefinitionTarget(left))
    case Some(Property(_, _)) =>
      var component :- Resolve(ctx.server, ctx.doc, p);
      Ok(true)
    case _ => Ok(false)
  }

  /** `getParentNode`. */
  function ParentStep(ctx: Context, around: Option<Path>): (r: Outcome<Step>)
    ensures r.Ok? && r.value.Match? ==>
      && around.Some? && |around.value| > 0
      && r.value.descriptor == NodeDescriptor(around.value[..|around.value| - 1])
    ensures r.Ok? ==> !r.value.Reject?
    ensures (r.Ok? && r.value.Match?) <==>
      around.Some? && |around.value| > 0 && IsJiveDefinition(ctx, around.value[..|around.value| - 1]) == Ok(true)
    ensures r.Throws? <==>
      around.Some? && (|around.value| == 0 || IsJiveDefinition(ctx, around.value[..|around.value| - 1]).Throws?)
  {
    match around
    case None => Ok(Continue)
    case Some(o) =>
      var parent :- ParentPath(o);
      var isDefinition :- IsJiveDefinition(ctx, parent);
      if isDefinition then Ok(Match(NodeDescriptor(parent))) else Ok(Continue)
  }

  // ---------------------------------------------------------------------------
  // The classifier

  function Attempts(ctx: Context, hits: Hits): (steps: seq<Outcome<Step>>)
    ensures |steps| == 4
  {
    [ MemberStep(ctx, hits.memberAround),
      Ok(LiteralStep(ctx, hits.nodeAround, hits.nodeBefore)),
      PropertyStep(ctx, hits.nodeAround),
      ParentStep(ctx, hits.objectAround) ]
  }

  function Classify(ctx: Context, hits: Hits): Outcome<Option<Descriptor>> {
    Chain(Attempts(ctx, hits))
  }

  /** `findJiveExpression(file, wordEnd)`: the engine is asked about the
      syntax-tree offset of the cursor, which is shifted in a JSON document. */
  function FindJiveExpression(ctx: Context, wordEnd: nat, locate: nat -> Hits): Outcome<Option<Descriptor>> {
    Classify(ctx, locate(AstOffset(ctx.doc.name, wordEnd)))
  }

  // ---------------------------------------------------------------------------
  // Properties

  /** A member expression that does not name a root, outside a definition's
      function, stops the chain with no descriptor, whatever the later attempts
      would have found. */
  lemma RejectStopsChain(ctx: Context, hits: Hits, around: Option<Path>, before: Option<Path>, objectAround: Option<Path>)
    requires hits.memberAround.Some?
    requires var n := NodeAt(ctx.doc.ast, hits.memberAround.value.path);
      n.Some? && n.value.MemberExpression? && !NamesRoot(n.value.obj)
      && (!hits.memberAround.value.inFunction || n.value.obj != ThisExpression)
    ensures Classify(ctx, hits) == Ok(None)
    ensures Classify(ctx, Hits(hits.memberAround, around, before, objectAround)) == Ok(None)
  {
    var steps := Attempts(ctx, hits);
    assert Decides(steps, 0);
    var other := Attempts(ctx, Hits(hits.memberAround, around, before, objectAround));
    assert Decides(other, 0);
  }

  /** The attempts run in order: when the member attempt passes and the cursor
      is in a literal with a node before it, attempt 2 decides and the
      property and object-literal attempts are not consulted. */
  lemma LiteralBeatsLaterAttempts(ctx: Context, hits: Hits, objectAround: Option<Path>)
    requires MemberStep(ctx, hits.memberAround) == Ok(Continue)
    requires LiteralStep(ctx, hits.nodeAround, hits.nodeBefore).Match?
    ensures Classify(ctx, hits) == Ok(Some(NodeDescriptor(hits.nodeBefore.value)))
    ensures Classify(ctx, hits.(objectAround := objectAround)) == Classify(ctx, hits)
  {
    assert Decides(Attempts(ctx, hits), 1);
    assert Decides(Attempts(ctx, hits.(objectAround := objectAround)), 1);
  }

  /** A descriptor comes from the first attempt that does not pass, and the
      request has none only if every attempt passed or one refused. */
  lemma {:induction false} ChainDecidesFirst(steps: seq<Outcome<Step>>)
    ensures Chain(steps).Ok? && Chain(steps).value.Some? ==>
      exists k :: Decides(steps, k) && steps[k] == Ok(Match(Chain(steps).value.value))
    ensures Chain(steps) == Ok(None) ==>
      (forall j :: 0 <= j < |steps| ==> steps[j] == Ok(Continue))
      || exists k :: Decides(steps, k) && steps[k] == Ok(Reject)
    decreases |steps|
  {
    if steps != [] && steps[0] == Ok(Continue) {
      ChainDecidesFirst(steps[1..]);
      var r := Chain(steps[1..]);
      if r.Ok? && r.value.Some? {
        var k :| Decides(steps[1..], k) && steps[1..][k] == Ok(Match(r.value.value));
        assert Decides(steps, k + 1);
      }
      if r == Ok(None) && !(forall j :: 0 <= j < |steps[1..]| ==> steps[1..][j] == Ok(Continue)) {
        var k :| Decides(steps[1..], k) && steps[1..][k] == Ok(Reject);
        assert Decides(steps, k + 1);
      }
      if forall j :: 0 <= j < |steps[1..]| ==> steps[1..][j] == Ok(Continue) {
        assert forall j :: 0 <= j < |steps| ==> steps[j] == Ok(Continue) by {
          forall j | 0 <= j < |steps| ensures steps[j] == Ok(Continue) {
            if j > 0 { assert steps[j] == steps[1..][j - 1]; }
          }
        }
      }
    } else if steps != [] {
      assert Decides(steps, 0);
    }
  }

  /** Two levels above the holder of the property two levels above `p`. */
  lemma {:induction false} AncestorOfAncestor(p: Path, k: nat)
    requires 2 <= |p| && 2 * k <= |p| - 2
    ensures p[..|p| - 2][..|p| - 2 - 2 * k] == p[..|p| - 2 * (k + 1)]
  {
  }

  /** One round of a climb that finds a component: the step goes up to a
      holder, and either the holder resolves to the component or the rest of
      the climb, from the holder, finds it. */
  lemma ClimbRound(ast: Node, resolve: Path -> Outcome<string>, p: Path, rounds: nat, c: string) returns (holder: Path)
    requires Climb(ast, resolve, Some(p), rounds) == Ok(c) && c != ""
    ensures rounds > 0 && ClimbStep(ast, p) == Ok(Some(holder))
    ensures resolve(holder) == Ok(c)
      || (resolve(holder) == Ok("") && Climb(ast, resolve, Some(holder), rounds - 1) == Ok(c))
  {
    holder := ClimbStep(ast, p).value.value;
  }

  /** The climb inspects the holder of every second ancestor: a component it
      returns is what the resolver says about the node `2k` levels above the
      starting property, in round `k`. */
  lemma {:induction false} ClimbFindsAncestor(ast: Node, resolve: Path -> Outcome<string>, p: Path, rounds: nat, c: string) returns (k: nat)
    requires Climb(ast, resolve, Some(p), rounds) == Ok(c) && c != ""
    ensures 1 <= k <= rounds && 2 * k <= |p|
    ensures resolve(p[..|p| - 2 * k]) == Ok(c)
    decreases rounds
  {
    var holder := ClimbRound(ast, resolve, p, rounds, c);
    assert holder == p[..|p| - 2];
    if resolve(holder) == Ok(c) {
      k := 1;
    } else {
      var j := ClimbFindsAncestor(ast, resolve, holder, rounds - 1, c);
      AncestorOfAncestor(p, j);
      k := j + 1;
      assert holder[..|holder| - 2 * j] == p[..|p| - 2 * k];
    }
  }

  /** The resolver in which every path but `q` names nothing, and `q` names `c`. */
  function OnlyAt(q: Path, c: string): Path -> Outcome<string> {
    x => if x == q then Ok(c) else Ok("")
  }

  /** One round that meets an object literal whose holder names nothing
      hands the climb on to that holder. */
  lemma ClimbPassesEmptyHolder(ast: Node, resolve: Path -> Outcome<string>, q: Path, h: Path, n: nat)
    requires ClimbStep(ast, q) == Ok(Some(h)) && resolve(h) == Ok("")
    ensures Climb(ast, resolve, Some(q), n + 1) == Climb(ast, resolve, Some(h), n)
  {
  }

  /** Going up from the holder reached after `k - 1` rounds. */
  lemma StepUp(ast: Node, p: Path, k: nat)
    requires 1 <= k && 2 * k <= |p| && IsObjectAt(ast, p[..|p| - 2 * k + 1])
    ensures ClimbStep(ast, p[..|p| - 2 * (k - 1)]) == Ok(Some(p[..|p| - 2 * k]))
  {
    var q := p[..|p| - 2 * (k - 1)];
    assert q[..|q| - 1] == p[..|p| - 2 * k + 1];
    assert q[..|q| - 1][..|q| - 2] == p[..|p| - 2 * k];
  }

  /** `++depth < 5`: the climb looks at four holders. Under five nested
      object literals whose holders name nothing but the fifth, the climb
      finds nothing, and one more round would find the fifth. */
  lemma ClimbStopsAfterFourRounds(ast: Node, p: Path, c: string)
    requires |p| >= 10 && c != ""
    requires forall k :: 1 <= k <= 5 ==> IsObjectAt(ast, p[..|p| - 2 * k + 1])
    ensures Climb(ast, OnlyAt(p[..|p| - 10], c), Some(p), ClimbRounds) == Ok("")
    ensures Climb(ast, OnlyAt(p[..|p| - 10], c), Some(p), ClimbRounds + 1) == Ok(c)
  {
    var f := OnlyAt(p[..|p| - 10], c);
    StepUp(ast, p, 1);
    StepUp(ast, p, 2);
    StepUp(ast, p, 3);
    StepUp(ast, p, 4);
    StepUp(ast, p, 5);
    assert p[..|p| - 0] == p;
    ClimbPassesEmptyHolder(ast, f, p, p[..|p| - 2], 3);
    ClimbPassesEmptyHolder(ast, f, p[..|p| - 2], p[..|p| - 4], 2);
    ClimbPassesEmptyHolder(ast, f, p[..|p| - 4], p[..|p| - 6], 1);
    ClimbPassesEmptyHolder(ast, f, p[..|p| - 6], p[..|p| - 8], 0);
    ClimbPassesEmptyHolder(ast, f, p, p[..|p| - 2], 4);
    ClimbPassesEmptyHolder(ast, f, p[..|p| - 2], p[..|p| - 4], 3);
    ClimbPassesEmptyHolder(ast, f, p[..|p| - 4], p[..|p| - 6], 2);
    ClimbPassesEmptyHolder(ast, f, p[..|p| - 6], p[..|p| - 8], 1);
  }

  /** Finding 3, as written: a `this.` in a function whose enclosing object
      literal is assigned to a plain target, with no component to be found,
      throws in the second round. */
  lemma ClimbThrowsAsWritten(ctx: Context)
    requires ctx.doc.ast == OtherNode([AssignmentExpression("=", Identifier("x"),
      ObjectExpression([Property(Identifier("init"), FunctionExpression([]))], ""))])
    ensures NodeAt(ctx.doc.ast, [0, 1, 0, 1]) == Some(FunctionExpression([]))
    ensures ThisComponentAsWritten(ctx, [0, 1, 0, 1]).Throws?
    ensures ThisComponent(ctx, [0, 1, 0, 1]) == Ok("")
  {
    var ast := ctx.doc.ast;
    var assignment := Children(ast)[0];
    var literal := Children(assignment)[1];
    var property := Children(literal)[0];
    assert NodeAt(property, [1]) == Some(FunctionExpression([]));
    assert NodeAt(literal, [0, 1]) == NodeAt(property, [1]);
    assert NodeAt(assignment, [1, 0, 1]) == NodeAt(literal, [0, 1]);
    assert NodeAt(ast, [0, 1, 0, 1]) == NodeAt(assignment, [1, 0, 1]);
    assert NodeAt(assignment, [1]) == Some(literal);
    assert NodeAt(ast, [0, 1]) == NodeAt(assignment, [1]);
    var p4: Path := [0, 1, 0, 1];
    var p3: Path := [0, 1, 0];
    var p2: Path := [0, 1];
    var p1: Path := [0];
    assert p4[..3] == p3 && p3[..2] == p2 && p2[..1] == p1 && p1[..0] == [];
    assert ParentPath(p4) == Ok(p3);
    assert ParentPath(p3) == Ok(p2);
    assert ParentPath(p2) == Ok(p1);
    assert IsObjectAt(ast, p2);
    assert ClimbStep(ast, p3) == Ok(Some(p1));
    assert NodeAt(ast, p1).value.AssignmentExpression?;
    assert NodeAt(ast, []).value.OtherNode?;
    assert Resolve(ctx.server, ctx.doc, p1) == Ok("");
    assert ClimbStep(ast, p1) == Ok(None);
  }

  /** Finding 3, corrected: the climb never throws for want of a holder, and
      it agrees with the source wherever the source does not throw. */
  lemma {:induction false} ClimbAgreesWhenSourceReturns(ast: Node, resolve: Path -> Outcome<string>, property: Option<Path>, rounds: nat)
    ensures ClimbAsWritten(ast, resolve, property, rounds).Ok? ==>
      Climb(ast, resolve, property, rounds) == ClimbAsWritten(ast, resolve, property, rounds)
    ensures Climb(ast, resolve, property, rounds).Throws? ==> ClimbAsWritten(ast, resolve, property, rounds).Throws?
    decreases rounds
  {
    if rounds > 0 && property.Some? {
      var holder := ClimbStep(ast, property.value);
      if holder.Ok? {
        ClimbAgreesWhenSourceReturns(ast, resolve, holder.value, rounds - 1);
      }
    }
  }

  /** The JSON dialect: the engine is asked about the offset in the parsed
      text that holds the character the cursor is at in the editor's text. */
  lemma JsonCursorIsShifted(ctx: Context, wordEnd: nat, locate: nat -> Hits)
    requires IsJsonFile(ctx.doc.name) && wordEnd <= |ctx.doc.text|
    ensures FindJiveExpression(ctx, wordEnd, locate) == Classify(ctx, locate(wordEnd + |InjectVariableDeclaration|))
    ensures PreParse(ctx.doc.name, ctx.doc.text)[wordEnd + |InjectVariableDeclaration|..] == ctx.doc.text[wordEnd..]
  {
    AstOffsetMatchesPreParse(ctx.doc.name, ctx.doc.text, wordEnd);
  }
}

=== FILE: completion.dfy ===
/** The completion generator `completeModuleName` (jive.js lines 389-577).

    Given what the classifier found at the cursor and the word typed so far,
    the generator lists candidates from the schema:
      - the keys of a component's `properties`, `defaultSettings` or
        `prototype` groups, along its `!proto` chain, most-derived first;
      - the component names, after a `type` key;
      - the CSS style names, after a `style` or `bodyStyle` key;
      - the members of an object-valued entry, inside a nested object literal;
      - the groups of the `Library` pseudo-definition, as a fallback;
      - `true` and `false` for a boolean slot, and the constants of a `!data`
        table;
      - a generated component id after a `components` key or a member
        expression.
    Schema walks share one de-duplicating table (see `Gather`). In a JSON
    document a key is offered with its quotes and colon.
 */
module Completion {
  import opened Wrappers
  import opened Strings
  import opened Syntax
  import opened Paths
  import opened Schema
  import opened Project
  import opened Resolver
  import opened Classifier
  import opened Gather

  const Properties: string := "properties"
  const Prototype: string := "prototype"
  const Components: string := "components"
  const Style: string := "style"
  const BodyStyle: string := "bodyStyle"
  const LibraryGroup: string := "Library"
  const JiveDefinition: string := "JiveDefinition"
  const DataPrefix: string := "_DP.ComponentTypes."

  // ---------------------------------------------------------------------------
  // Item fields

  /** `getTypeName`: an unnamed or missing type reads `object`, an array `[]`. */
  function TypeName(ty: Option<TypeRef>): (r: string)
    ensures r != ""
    ensures r == "object" <==> ty.None? || ty.value.name == "" || ty.value.name == "object"
    ensures r == "[]" <==> ty.Some? && (ty.value.name == "Array" || ty.value.name == "[]")
    ensures ty.Some? && ty.value.name != "" && ty.value.name != "Array" ==> r == ty.value.name
  {
    match ty
    case None => "object"
    case Some(t) => if t.name == "" then "object" else if t.name == "Array" then "[]" else t.name
  }

  /** `getName`: in a JSON document a key is completed with its quotes and the
      colon that follows it. The key can be read back from the completion. */
  function GetName(isJson: bool, key: string): (r: string)
    ensures !isJson ==> r == key
    ensures isJson ==> |r| == |key| + 4 && r[1..|r| - 3] == key && StartsWith(r, "\"") && r[|r| - 3..] == "\": "
  {
    if isJson then "\"" + key + "\": " else key
  }

  /** Two keys never share a completion text. */
  lemma GetNameIsInjective(isJson: bool, a: string, b: string)
    requires GetName(isJson, a) == GetName(isJson, b)
    ensures a == b
  {
  }

  /** The label a user sees: the display name, or the name when there is none. */
  function Label(item: Item): string {
    match item.displayName
    case Some(d) => d
    case None => item.name
  }

  // ---------------------------------------------------------------------------
  // gatherCompletionSet

  /** `gatherCompletionSet`'s own test: not a member of `Object.prototype`, and
      the key starts with the typed word. */
  predicate Offered(s: Slot, word: string) {
    !s.onObjectPrototype && StartsWith(s.entry.name, word)
  }

  /** The item `gatherCompletionSet` builds for an entry. */
  function EntryItem(e: Entry, isJson: bool): (item: Item)
    ensures Label(item) == e.name && item.name == GetName(isJson, e.name)
    ensures item.ty == Some(TypeName(e.ty)) && item.doc == Some(e.doc)
  {
    Item(GetName(isJson, e.name), Some(e.name), Some(TypeName(e.ty)), Some(e.doc))
  }

  function SlotCandidates(slots: seq<Slot>, word: string, isJson: bool): (cs: seq<Candidate>)
    ensures |cs| == |slots|
    ensures forall i :: 0 <= i < |slots| ==>
      cs[i] == Candidate(slots[i].entry.name, EntryItem(slots[i].entry, isJson), Offered(slots[i], word))
  {
    seq(|slots|, i requires 0 <= i < |slots| =>
      Candidate(slots[i].entry.name, EntryItem(slots[i].entry, isJson), Offered(slots[i], word)))
  }

  /** Every item is the item of a slot offered for the word whose key is not
      an `Object.prototype` name. */
  predicate FromOfferedSlots(slots: seq<Slot>, word: string, isJson: bool, items: seq<Item>) {
    forall i :: 0 <= i < |items| ==> OfferedItem(slots, word, isJson, items[i])
  }

  /** The item of a slot offered for the word whose key is not an
      `Object.prototype` name. */
  predicate OfferedItem(slots: seq<Slot>, word: string, isJson: bool, item: Item) {
    exists j ::
      && 0 <= j < |slots| && Offered(slots[j], word)
      && slots[j].entry.name !in ObjectPrototypeNames && item == EntryItem(slots[j].entry, isJson)
  }

  /** No label is listed twice. */
  predicate LabelsDiffer(items: seq<Item>) {
    forall i, j :: 0 <= i < j < |items| ==> Label(items[i]) != Label(items[j])
  }

  /** Every key offered for the word, other than an `Object.prototype` name,
      is some item's label. */
  predicate ListsEveryOffer(slots: seq<Slot>, word: string, items: seq<Item>) {
    forall k :: 0 <= k < |slots| && Offered(slots[k], word) && slots[k].entry.name !in ObjectPrototypeNames ==>
      exists i :: 0 <= i < |items| && Label(items[i]) == slots[k].entry.name
  }

  /** What the `gatherCompletionSet` callbacks list for a sequence of slots:
      entries offered for the word, once per key, never an `Object.prototype`
      name, and every offered key is listed. */
  function SlotItems(slots: seq<Slot>, word: string, isJson: bool): (items: seq<Item>)
    ensures FromOfferedSlots(slots, word, isJson, items)
    ensures LabelsDiffer(items)
    ensures ListsEveryOffer(slots, word, items)
  {
    ListedSlotsAreOffered(slots, word, isJson);
    ListedLabelsDiffer(slots, word, isJson);
    OfferedSlotsAreListed(slots, word, isJson);
    Listed(SlotCandidates(slots, word, isJson), ObjectPrototypeNames)
  }

  lemma ListedSlotsAreOffered(slots: seq<Slot>, word: string, isJson: bool)
    ensures FromOfferedSlots(slots, word, isJson, Listed(SlotCandidates(slots, word, isJson), ObjectPrototypeNames))
  {
    var cs := SlotCandidates(slots, word, isJson);
    var items := Listed(cs, ObjectPrototypeNames);
    var picked := Pick(cs, ObjectPrototypeNames);
    PickedAreFirstUnseen(cs, ObjectPrototypeNames);
    assert FirstUnseen(cs, ObjectPrototypeNames, picked);
    forall i | 0 <= i < |items| ensures OfferedItem(slots, word, isJson, items[i]) {
      var j := picked[i];
      assert FirstOfKey(cs, j) && cs[j].key !in ObjectPrototypeNames;
      assert cs[j] == Candidate(slots[j].entry.name, EntryItem(slots[j].entry, isJson), Offered(slots[j], word));
      assert items[i] == cs[j].item;
      assert 0 <= j < |slots| && Offered(slots[j], word)
        && slots[j].entry.name !in ObjectPrototypeNames && items[i] == EntryItem(slots[j].entry, isJson);
    }
  }

  lemma ListedLabelsDiffer(slots: seq<Slot>, word: string, isJson: bool)
    ensures LabelsDiffer(Listed(SlotCandidates(slots, word, isJson), ObjectPrototypeNames))
  {
    var cs := SlotCandidates(slots, word, isJson);
    var items := Listed(cs, ObjectPrototypeNames);
    var picked := Pick(cs, ObjectPrototypeNames);
    PickedKeysDiffer(cs, ObjectPrototypeNames);
    assert KeysDiffer(cs, picked);
    assert forall i :: 0 <= i < |items| ==> Label(items[i]) == cs[picked[i]].key;
  }

  lemma OfferedSlotsAreListed(slots: seq<Slot>, word: string, isJson: bool)
    ensures ListsEveryOffer(slots, word, Listed(SlotCandidates(slots, word, isJson), ObjectPrototypeNames))
  {
    var cs := SlotCandidates(slots, word, isJson);
    var items := Listed(cs, ObjectPrototypeNames);
    var picked := Pick(cs, ObjectPrototypeNames);
    PickIsComplete(cs, ObjectPrototypeNames);
    assert Covers(cs, ObjectPrototypeNames, picked);
    forall k | 0 <= k < |slots| && Offered(slots[k], word) && slots[k].entry.name !in ObjectPrototypeNames
      ensures exists i :: 0 <= i < |items| && Label(items[i]) == slots[k].entry.name
    {
      assert cs[k].eligible && cs[k].key !in ObjectPrototypeNames;
      assert Listing(cs, picked, cs[k].key);
      var i :| 0 <= i < |picked| && cs[picked[i]].key == cs[k].key;
      assert Label(items[i]) == cs[picked[i]].key;
    }
  }

  /** First wins: the entry listed for a key is the first offered slot with that
      key, so an entry of a derived definition hides the same key further up
      its chain. */
  lemma SlotItemsFirstWins(slots: seq<Slot>, word: string, isJson: bool, k: nat)
    requires k < |slots| && Offered(slots[k], word) && slots[k].entry.name !in ObjectPrototypeNames
    requires forall j :: 0 <= j < k && Offered(slots[j], word) ==> slots[j].entry.name != slots[k].entry.name
    ensures EntryItem(slots[k].entry, isJson) in SlotItems(slots, word, isJson)
  {
    var cs := SlotCandidates(slots, word, isJson);
    assert FirstOfKey(cs, k);
    PickedIffFirstUnseen(cs, ObjectPrototypeNames, k);
    var picked := Pick(cs, ObjectPrototypeNames);
    var i :| 0 <= i < |picked| && picked[i] == k;
    assert Listed(cs, ObjectPrototypeNames)[i] == EntryItem(slots[k].entry, isJson);
  }

  /** A word that starts with a longer word starts with the shorter one. */
  lemma StartsWithShorter(s: string, word: string, more: string)
    requires StartsWith(s, word + more)
    ensures StartsWith(s, word)
  {
    assert s[..|word|] == s[..|word + more|][..|word|];
  }

  /** Typing more narrows the list: what is listed for a longer word is listed
      for the shorter one. */
  lemma SlotItemsNarrow(slots: seq<Slot>, word: string, more: string, isJson: bool, item: Item)
    requires item in SlotItems(slots, word + more, isJson)
    ensures item in SlotItems(slots, word, isJson)
  {
    var longer := SlotItems(slots, word + more, isJson);
    var cs := SlotCandidates(slots, word + more, isJson);
    var picked := Pick(cs, ObjectPrototypeNames);
    var i :| 0 <= i < |longer| && longer[i] == item;
    PickedAreFirstUnseen(cs, ObjectPrototypeNames);
    assert FirstUnseen(cs, ObjectPrototypeNames, picked);
    var k := picked[i];
    assert FirstOfKey(cs, k) && cs[k].key !in ObjectPrototypeNames;
    assert item == EntryItem(slots[k].entry, isJson);
    var name := slots[k].entry.name;
    StartsWithShorter(name, word, more);
    forall j | 0 <= j < k && Offered(slots[j], word) ensures slots[j].entry.name != name {
      assert cs[j].eligible ==> cs[j].key != name;
    }
    SlotItemsFirstWins(slots, word, isJson, k);
  }

  // ---------------------------------------------------------------------------
  // The groups walked

  /** `cx.definitions.jive.JiveDefinition.props[group]`; a missing definition
      or group makes `forAllPropertiesOf` read a property of `undefined`. */
  function JiveGroup(reg: Registry, group: string): (r: Outcome<seq<Entry>>)
    ensures r.Ok? <==> JiveDefinition in reg.defs && OwnBag(reg.defs[JiveDefinition], group).Some?
    ensures r.Ok? ==> r.value == OwnBag(reg.defs[JiveDefinition], group).value
  {
    if JiveDefinition !in reg.defs then Throws("cx.definitions.jive.JiveDefinition is undefined")
    else
      match OwnBag(reg.defs[JiveDefinition], group)
      case None => Throws("forAllPropertiesOf(undefined)")
      case Some(es) => Ok(es)
  }

  /** The group `gatherCompletionSetForComponent` walks for a key. */
  function ComponentGroup(keyName: string): (g: Option<string>)
    ensures g.Some? <==> keyName in {Properties, Settings, Prototype}
    ensures keyName == Settings ==> g == Some(DefaultSettings)
    ensures keyName == Properties || keyName == Prototype ==> g == Some(keyName)
  {
    if keyName == Properties then Some(Properties)
    else if keyName == Settings then Some(DefaultSettings)
    else if keyName == Prototype then Some(Prototype)
    else None
  }

  /** `gatherCompletionSetForComponent`: the slots of the component's groups
      for the key, along its proto chain. An empty or unknown component, a
      falsy key, or a key without a group give nothing. */
  function ForComponent(reg: Registry, component: string, keyName: Option<string>): (slots: seq<Slot>)
    ensures slots != [] ==>
      && component != "" && component in reg.defs
      && keyName.Some? && ComponentGroup(keyName.value).Some?
      && slots == ChainSlots(reg, component, ComponentGroup(keyName.value).value)
    ensures component != "" && component in reg.defs && keyName.Some? && ComponentGroup(keyName.value).Some? ==>
      slots == ChainSlots(reg, component, ComponentGroup(keyName.value).value)
  {
    if component == "" || keyName.None? || keyName.value == "" || component !in reg.defs then []
    else
      match ComponentGroup(keyName.value)
      case None => []
      case Some(g) => ChainSlots(reg, component, g)
  }

  /** A component's own group comes first in the walk along its chain. */
  lemma {:induction false} OwnGroupLeads(reg: Registry, component: string, group: string)
    requires component in reg.defs && OwnBag(reg.defs[component], group).Some?
    ensures var own := OwnBag(reg.defs[component], group).value;
      var slots := ChainSlots(reg, component, group);
      |own| <= |slots| && forall j :: 0 <= j < |own| ==> slots[j] == Slot(own[j], false)
  {
    var chain := ProtoChain(reg, component);
    assert |reg.defs| > 0 by {
      assert component in reg.defs.Keys;
    }
    assert chain[0] == component;
    var own := OwnBag(reg.defs[component], group).value;
    var bags := BagsAlong(reg, chain, group);
    assert bags == [own] + BagsAlong(reg, chain[1..], group);
    assert ChainSlots(reg, component, group) == BagSlots(reg, own) + SlotsOfBags(reg, bags[1..]);
  }

  /** Most-derived wins: the first entry with a key in a component's own group
      is the one listed for that key, whatever its parents declare. */
  lemma OwnEntryShadowsParents(reg: Registry, component: string, keyName: string, word: string, isJson: bool, j: nat)
    requires component != "" && keyName != "" && component in reg.defs
    requires ComponentGroup(keyName).Some?
    requires var own := OwnBag(reg.defs[component], ComponentGroup(keyName).value);
      && own.Some? && j < |own.value|
      && StartsWith(own.value[j].name, word) && own.value[j].name !in ObjectPrototypeNames
      && forall i :: 0 <= i < j ==> own.value[i].name != own.value[j].name
    ensures EntryItem(OwnBag(reg.defs[component], ComponentGroup(keyName).value).value[j], isJson)
      in SlotItems(ForComponent(reg, component, Some(keyName)), word, isJson)
  {
    var group := ComponentGroup(keyName).value;
    var own := OwnBag(reg.defs[component], group).value;
    OwnGroupLeads(reg, component, group);
    var slots := ForComponent(reg, component, Some(keyName));
    assert slots == ChainSlots(reg, component, group);
    assert slots[j] == Slot(own[j], false);
    forall i | 0 <= i < j && Offered(slots[i], word) ensures slots[i].entry.name != slots[j].entry.name {
      assert slots[i] == Slot(own[i], false);
    }
    SlotItemsFirstWins(slots, word, isJson, j);
  }

  /** The groups on the definitions before the `k`-th of a component's proto chain. */
  function SlotsBefore(reg: Registry, component: string, group: string, k: nat): (before: seq<Slot>)
    requires k <= |ProtoChain(reg, component)|
    ensures |before| <= |ChainSlots(reg, component, group)|
    ensures before == ChainSlots(reg, component, group)[..|before|]
  {
    var chain := ProtoChain(reg, component);
    assert chain == chain[..k] + chain[k..];
    BagsAlongAppend(reg, chain[..k], chain[k..], group);
    SlotsOfBagsAppend(reg, BagsAlong(reg, chain[..k], group), BagsAlong(reg, chain[k..], group));
    SlotsOfBags(reg, BagsAlong(reg, chain[..k], group))
  }

  /** The walk around the `k`-th definition of a proto chain that has the
      group: the definitions before it, its own group, the definitions after it. */
  lemma ChainSlotsAround(reg: Registry, component: string, group: string, k: nat)
    requires k < |ProtoChain(reg, component)|
    requires OwnBag(reg.defs[ProtoChain(reg, component)[k]], group).Some?
    ensures var chain := ProtoChain(reg, component);
      ChainSlots(reg, component, group)
        == SlotsBefore(reg, component, group, k)
           + BagSlots(reg, OwnBag(reg.defs[chain[k]], group).value)
           + SlotsOfBags(reg, BagsAlong(reg, chain[k + 1..], group))
  {
    var chain := ProtoChain(reg, component);
    BagsAround(reg, chain, group, k);
    SlotsAround(reg, BagsAlong(reg, chain[..k], group), OwnBag(reg.defs[chain[k]], group).value, BagsAlong(reg, chain[k + 1..], group));
  }

  /** Entry `j` of the group on the `k`-th definition of a proto chain sits in
      the walk right after the slots of the definitions before it. */
  lemma ChainSlotOf(reg: Registry, component: string, group: string, k: nat, j: nat)
    requires k < |ProtoChain(reg, component)|
    requires var own := OwnBag(reg.defs[ProtoChain(reg, component)[k]], group);
      own.Some? && j < |own.value|
    ensures var before := SlotsBefore(reg, component, group, k);
      var own := OwnBag(reg.defs[ProtoChain(reg, component)[k]], group).value;
      var slots := ChainSlots(reg, component, group);
      && |before| + j < |slots|
      && forall i :: |before| <= i <= |before| + j ==> slots[i] == Slot(own[i - |before|], false)
  {
    ChainSlotsAround(reg, component, group, k);
  }

  /** Most-derived wins along the whole chain: entry `j` of the group on the
      `k`-th definition of a component's proto chain is listed when no slot
      offered before it in the walk (on an earlier definition, or earlier in
      its own group) has its key. */
  lemma InheritedEntryIsOffered(reg: Registry, component: string, keyName: string, word: string, isJson: bool, k: nat, j: nat)
    requires component != "" && component in reg.defs && ComponentGroup(keyName).Some?
    requires k < |ProtoChain(reg, component)|
    requires var group := ComponentGroup(keyName).value;
      var own := OwnBag(reg.defs[ProtoChain(reg, component)[k]], group);
      var before := SlotsBefore(reg, component, group, k);
      && own.Some? && j < |own.value|
      && StartsWith(own.value[j].name, word) && own.value[j].name !in ObjectPrototypeNames
      && (forall i :: 0 <= i < j ==> own.value[i].name != own.value[j].name)
      && forall i :: 0 <= i < |before| && Offered(before[i], word) ==> before[i].entry.name != own.value[j].name
    ensures EntryItem(OwnBag(reg.defs[ProtoChain(reg, component)[k]], ComponentGroup(keyName).value).value[j], isJson)
      in SlotItems(ForComponent(reg, component, Some(keyName)), word, isJson)
  {
    var group := ComponentGroup(keyName).value;
    var own := OwnBag(reg.defs[ProtoChain(reg, component)[k]], group).value;
    var before := SlotsBefore(reg, component, group, k);
    ChainSlotOf(reg, component, group, k, j);
    var slots := ForComponent(reg, component, Some(keyName));
    var m := |before| + j;
    assert slots[m] == Slot(own[j], false);
    forall i | 0 <= i < m && Offered(slots[i], word) ensures slots[i].entry.name != slots[m].entry.name {
      if i < |before| {
        assert slots[i] == before[i];
      } else {
        assert slots[i] == Slot(own[i - |before|], false);
      }
    }
    SlotItemsFirstWins(slots, word, isJson, m);
  }

  /** The text form of a key: `key.name` or `key.value` when it is a string. */
  function KeyText(key: Node): (r: Option<string>)
    ensures forall s :: KeyIs(key, s) <==> r == Some(s)
  {
    match key
    case Identifier(n) => Some(n)
    case Literal(Some(v)) => Some(v)
    case _ => None
  }

  /** The entries named like `key` in `entries`, each contributing its own
      members and then `Object.prototype`'s. */
  function MemberSlots(reg: Registry, entries: seq<Entry>, key: Node): seq<Slot>
    decreases |entries|
  {
    if entries == [] then []
    else
      (if KeyIs(key, entries[0].name) then BagSlots(reg, entries[0].members) else [])
      + MemberSlots(reg, entries[1..], key)
  }

  function NestedSlots(reg: Registry, groups: seq<seq<Entry>>, key: Node): seq<Slot>
    decreases |groups|
  {
    if groups == [] then [] else MemberSlots(reg, groups[0], key) + NestedSlots(reg, groups[1..], key)
  }

  /** The walk over a definition calls its callback at least once: some
      definition on the chain has a group, or `Object.prototype` has a member. */
  predicate WalkVisits(reg: Registry, chain: seq<string>)
    requires forall i :: 0 <= i < |chain| ==> chain[i] in reg.defs
  {
    |reg.objectPrototype| > 0 || exists i :: 0 <= i < |chain| && |reg.defs[chain[i]].bags| > 0
  }

  /** `gatherCompletionSetForObjectExpression`: inside an object literal that
      is the value of property `key`, itself inside the object literal that is
      the value of property `groupKey` of a resolved component, the slots of
      the members of the `key` entries of the `groupKey` groups along the
      chain. */
  function ForObjectExpression(ctx: Context, path: Path, key: Node): (r: Outcome<seq<Slot>>)
    ensures |path| < 2 ==> r.Throws?
    ensures |path| >= 2 && Resolve(ctx.server, ctx.doc, path[..|path| - 2]) == Ok("") ==> r == Ok([])
    ensures r.Ok? && r.value != [] ==>
      && var grandParent := path[..|path| - 2];
        && NodeAt(ctx.doc.ast, grandParent).Some? && NodeAt(ctx.doc.ast, grandParent).value.Property?
        && var component := Resolve(ctx.server, ctx.doc, grandParent);
          && component.Ok? && component.value in ctx.reg.defs
          && KeyText(NodeAt(ctx.doc.ast, grandParent).value.key).Some?
          && r.value == NestedSlots(ctx.reg,
               BagsAlong(ctx.reg, ProtoChain(ctx.reg, component.value), KeyText(NodeAt(ctx.doc.ast, grandParent).value.key).value),
               key)
  {
    var parent :- ParentPath(path);
    var grandParent :- ParentPath(parent);
    assert grandParent == path[..|path| - 2];
    var component :- Resolve(ctx.server, ctx.doc, grandParent);
    if component == "" then Ok([])
    else if component !in ctx.reg.defs then Throws("forAllPropertiesOf(undefined)")
    else
      var chain := ProtoChain(ctx.reg, component);
      match NodeAt(ctx.doc.ast, grandParent)
      case Some(Property(groupKey, _)) =>
        (match KeyText(groupKey)
         case None => Ok([])
         case Some(g) => Ok(NestedSlots(ctx.reg, BagsAlong(ctx.reg, chain, g), key)))
      case _ => if WalkVisits(ctx.reg, chain) then Throws("grandParent.key is undefined") else Ok([])
  }

  /** The object literal around the cursor is the value of a property inside
      the object literal that is the value of property `g` (a text key) of
      resolved component `c`. */
  predicate InComponentGroup(ctx: Context, path: Path, c: string, g: string) {
    && |path| >= 2
    && NodeAt(ctx.doc.ast, path[..|path| - 2]).Some?
    && NodeAt(ctx.doc.ast, path[..|path| - 2]).value.Property?
    && KeyText(NodeAt(ctx.doc.ast, path[..|path| - 2]).value.key) == Some(g)
    && Resolve(ctx.server, ctx.doc, path[..|path| - 2]) == Ok(c)
    && c != "" && c in ctx.reg.defs
  }

  /** In a component's group, the walk visits the members of the entries
      named like `key` in that group along the chain. */
  lemma ObjectExpressionWalksGroup(ctx: Context, path: Path, key: Node, c: string, g: string)
    requires InComponentGroup(ctx, path, c, g)
    ensures ForObjectExpression(ctx, path, key) == Ok(NestedSlots(ctx.reg, BagsAlong(ctx.reg, ProtoChain(ctx.reg, c), g), key))
  {
    assert ParentPath(path) == Ok(path[..|path| - 1]);
    assert path[..|path| - 1][..|path| - 2] == path[..|path| - 2];
    assert ParentPath(path[..|path| - 1]) == Ok(path[..|path| - 2]);
  }

  /** Every member slot of an entry named like `key` is visited. */
  lemma {:induction false} MemberSlotsHold(reg: Registry, entries: seq<Entry>, key: Node, i: nat)
    requires i < |entries| && KeyIs(key, entries[i].name)
    ensures forall s :: s in BagSlots(reg, entries[i].members) ==> s in MemberSlots(reg, entries, key)
    decreases |entries|
  {
    var head := if KeyIs(key, entries[0].name) then BagSlots(reg, entries[0].members) else [];
    var tail := MemberSlots(reg, entries[1..], key);
    assert MemberSlots(reg, entries, key) == head + tail;
    if i == 0 {
      assert head == BagSlots(reg, entries[i].members);
    } else {
      MemberSlotsHold(reg, entries[1..], key, i - 1);
      assert entries[1..][i - 1] == entries[i];
      forall s | s in BagSlots(reg, entries[i].members)
        ensures s in head + tail
      {
        assert s in tail;
      }
    }
  }

  lemma {:induction false} NestedSlotsHold(reg: Registry, groups: seq<seq<Entry>>, key: Node, gi: nat, i: nat)
    requires gi < |groups| && i < |groups[gi]| && KeyIs(key, groups[gi][i].name)
    ensures forall s :: s in BagSlots(reg, groups[gi][i].members) ==> s in NestedSlots(reg, groups, key)
    decreases |groups|
  {
    if gi == 0 {
      MemberSlotsHold(reg, groups[0], key, i);
    } else {
      NestedSlotsHold(reg, groups[1..], key, gi - 1, i);
      assert groups[1..][gi - 1] == groups[gi];
    }
  }

  /** Inside `<g>: { <key>: { ... } }` of a resolved component, every member of
      the component's own `<g>` entry for that key is visited. */
  lemma KeyEntryMembersAreVisited(ctx: Context, path: Path, key: Node, c: string, g: string, i: nat)
    requires InComponentGroup(ctx, path, c, g)
    requires OwnBag(ctx.reg.defs[c], g).Some?
    requires i < |OwnBag(ctx.reg.defs[c], g).value| && KeyIs(key, OwnBag(ctx.reg.defs[c], g).value[i].name)
    ensures ForObjectExpression(ctx, path, key).Ok?
    ensures forall s :: s in BagSlots(ctx.reg, OwnBag(ctx.reg.defs[c], g).value[i].members) ==>
      s in ForObjectExpression(ctx, path, key).value
  {
    ObjectExpressionWalksGroup(ctx, path, key, c, g);
    var chain := ProtoChain(ctx.reg, c);
    assert chain[0] == c;
    var groups := BagsAlong(ctx.reg, chain, g);
    assert groups[0] == OwnBag(ctx.reg.defs[c], g).value;
    NestedSlotsHold(ctx.reg, groups, key, 0, i);
  }

  // ---------------------------------------------------------------------------
  // The other gatherers

  /** The position of the first `n` in `order`. */
  function FirstIndex(order: seq<string>, n: string): (i: nat)
    requires n in order
    ensures i < |order| && order[i] == n && forall j :: 0 <= j < i ==> order[j] != n
  {
    if order[0] == n then 0 else 1 + FirstIndex(order[1..], n)
  }

  /** One `for (var prop in cx.definitions.jive)` callback per name. */
  function NameCandidates(reg: Registry, word: string): (cs: seq<Candidate>)
    ensures |cs| == |reg.order|
    ensures forall i :: 0 <= i < |cs| ==>
      cs[i] == Candidate(reg.order[i], Item(reg.order[i], None, None, None),
                         reg.order[i] != JiveDefinition && StartsWith(reg.order[i], word))
  {
    seq(|reg.order|, i requires 0 <= i < |reg.order| =>
      Candidate(reg.order[i], Item(reg.order[i], None, None, None), reg.order[i] != JiveDefinition && StartsWith(reg.order[i], word)))
  }

  /** `gatherJiveComponentNames`: the component names in definition order,
      except `JiveDefinition`, that start with the word, once each. */
  function ComponentNames(reg: Registry, word: string): (items: seq<Item>)
    ensures forall i :: 0 <= i < |items| ==>
      && items[i] == Item(items[i].name, None, None, None)
      && items[i].name in reg.order && items[i].name != JiveDefinition
      && StartsWith(items[i].name, word) && items[i].name !in ObjectPrototypeNames
    ensures forall i, j :: 0 <= i < j < |items| ==> items[i].name != items[j].name
    ensures forall n :: n in reg.order && n != JiveDefinition && StartsWith(n, word) && n !in ObjectPrototypeNames ==>
      Item(n, None, None, None) in items
    ensures forall i, j :: 0 <= i < j < |items| ==>
      FirstIndex(reg.order, items[i].name) < FirstIndex(reg.order, items[j].name)
  {
    ComponentNamesSound(reg, word);
    ComponentNamesComplete(reg, word);
    ComponentNamesInOrder(reg, word);
    Listed(NameCandidates(reg, word), ObjectPrototypeNames)
  }

  lemma ComponentNamesSound(reg: Registry, word: string)
    ensures var items := Listed(NameCandidates(reg, word), ObjectPrototypeNames);
      && (forall i :: 0 <= i < |items| ==>
           && items[i] == Item(items[i].name, None, None, None)
           && items[i].name in reg.order && items[i].name != JiveDefinition
           && StartsWith(items[i].name, word) && items[i].name !in ObjectPrototypeNames)
      && (forall i, j :: 0 <= i < j < |items| ==> items[i].name != items[j].name)
  {
    var cs := NameCandidates(reg, word);
    PickedAreFirstUnseen(cs, ObjectPrototypeNames);
    PickedKeysDiffer(cs, ObjectPrototypeNames);
    var items := Listed(cs, ObjectPrototypeNames);
    var picked := Pick(cs, ObjectPrototypeNames);
    assert forall i :: 0 <= i < |items| ==> items[i].name == cs[picked[i]].key;
  }

  lemma ComponentNamesComplete(reg: Registry, word: string)
    ensures forall n :: n in reg.order && n != JiveDefinition && StartsWith(n, word) && n !in ObjectPrototypeNames ==>
      Item(n, None, None, None) in Listed(NameCandidates(reg, word), ObjectPrototypeNames)
  {
    var cs := NameCandidates(reg, word);
    PickIsComplete(cs, ObjectPrototypeNames);
    var items := Listed(cs, ObjectPrototypeNames);
    var picked := Pick(cs, ObjectPrototypeNames);
    forall n | n in reg.order && n != JiveDefinition && StartsWith(n, word) && n !in ObjectPrototypeNames
      ensures Item(n, None, None, None) in items
    {
      var k :| 0 <= k < |reg.order| && reg.order[k] == n;
      assert cs[k].eligible;
      assert Listing(cs, picked, n);
      var i :| 0 <= i < |picked| && cs[picked[i]].key == n;
      assert items[i] == Item(n, None, None, None);
    }
  }

  /** Definition order: each name is listed at its first occurrence. */
  lemma ComponentNamesInOrder(reg: Registry, word: string)
    ensures var items := Listed(NameCandidates(reg, word), ObjectPrototypeNames);
      forall i, j :: 0 <= i < j < |items| ==>
        && items[i].name in reg.order && items[j].name in reg.order
        && FirstIndex(reg.order, items[i].name) < FirstIndex(reg.order, items[j].name)
  {
    var cs := NameCandidates(reg, word);
    PickedAreFirstUnseen(cs, ObjectPrototypeNames);
    var items := Listed(cs, ObjectPrototypeNames);
    var picked := Pick(cs, ObjectPrototypeNames);
    forall i | 0 <= i < |items|
      ensures items[i].name in reg.order && FirstIndex(reg.order, items[i].name) == picked[i]
    {
      var n := cs[picked[i]].key;
      assert FirstOfKey(cs, picked[i]);
      assert items[i].name == n == reg.order[picked[i]];
    }
  }

  /** `gatherBoolValue`: the two boolean literals, typed `bool`, and only
      before anything is typed. */
  function BoolItems(word: string): (items: seq<Item>)
    ensures word != "" ==> items == []
    ensures word == "" ==> |items| == 2 && items[0].name == "true" && items[1].name == "false"
    ensures forall i :: 0 <= i < |items| ==> items[i] == Item(items[i].name, None, Some("bool"), None)
  {
    if word == "" then [Item("true", None, Some("bool"), None), Item("false", None, Some("bool"), None)] else []
  }

  /** `gatherPropertyValue`: every constant of a `!data` table, unfiltered,
      as a qualified name under `_DP.ComponentTypes`. */
  function DataItems(table: string, entries: seq<Entry>): (items: seq<Item>)
    ensures |items| == |entries|
    ensures forall i :: 0 <= i < |items| ==>
      && StartsWith(items[i].name, DataPrefix + table + ".")
      && items[i].name[|DataPrefix + table + "."|..] == entries[i].name
      && items[i].displayName.None? && items[i].doc.None?
      && items[i].ty == Some(TypeName(entries[i].ty))
  {
    seq(|entries|, i requires 0 <= i < |entries| =>
      Item(DataPrefix + table + "." + entries[i].name, None, Some(TypeName(entries[i].ty)), None))
  }

  /** A constant's name is the last dotted segment of its completion. */
  lemma DataItemEndsWithConstant(table: string, entries: seq<Entry>, i: nat)
    requires i < |entries| && Free(entries[i].name, {'.'})
    ensures Last(Split(DataItems(table, entries)[i].name, {'.'})) == entries[i].name
  {
    var head := DataPrefix + table;
    assert DataItems(table, entries)[i].name == head + ['.'] + entries[i].name;
    SplitAppend(head, '.', entries[i].name, {'.'});
    SplitFree(entries[i].name, {'.'});
  }

  /** The one-item list with a generated id that a `components` key offers;
      `name` and `displayName` are as the source sets them. */
  function IdForKey(isJson: bool, id: string, word: string): (items: seq<Item>)
    ensures word != "" ==> items == []
    ensures word == "" ==> |items| == 1 && Label(items[0]) == id && items[0].name == GetName(isJson, id)
  {
    if word == "" then [Item(GetName(isJson, id), Some(id), None, None)] else []
  }

  /** The same list after a member expression: here the source puts the bare
      id in `name` and the quoted form in `displayName`. */
  function IdForMember(isJson: bool, id: string, word: string): (items: seq<Item>)
    ensures word != "" ==> items == []
    ensures word == "" ==> |items| == 1 && items[0].name == id && Label(items[0]) == GetName(isJson, id)
  {
    if word == "" then [Item(id, Some(GetName(isJson, id)), None, None)] else []
  }

  // ---------------------------------------------------------------------------
  // completeModuleName

  /** The groups of `Library`, the fallback list. */
  function LibraryItems(reg: Registry, word: string, isJson: bool): Outcome<seq<Item>> {
    var es :- JiveGroup(reg, LibraryGroup);
    Ok(SlotItems(BagSlots(reg, es), word, isJson))
  }

  /** `completeModuleName` for a property descriptor: the key decides first. */
  function ForProperty(ctx: Context, path: Path, key: Node, value: Node, word: string, id: string): Outcome<seq<Item>> {
    var reg := ctx.reg;
    var isJson := IsJsonFile(ctx.doc.name);
    if KeyIs(key, TypeKey) then Ok(ComponentNames(reg, word))
    else if KeyIs(key, Components) then Ok(IdForKey(isJson, id, word))
    else if KeyIs(key, Style) || KeyIs(key, BodyStyle) then Ok(SlotItems(BagSlots(reg, reg.css), word, isJson))
    else ForSchemaProperty(ctx, path, key, value, word)
  }

  /** The remaining keys: the object literal around the property, then the
      resolved component, then the nested object literal decide. */
  function ForSchemaProperty(ctx: Context, path: Path, key: Node, value: Node, word: string): Outcome<seq<Item>> {
    var reg := ctx.reg;
    var isJson := IsJsonFile(ctx.doc.name);
    var parent :- ParentPath(path);
    match NodeAt(ctx.doc.ast, parent)
    case Some(ObjectExpression(_, typeName)) =>
      if typeName == Components then LibraryItems(reg, word, isJson)
      else
        var component := Resolve(ctx.server, ctx.doc, path).value;
        if component != "" then Ok(SlotItems(ForComponent(reg, component, KeyName(key)), word, isJson))
        else if value.ObjectExpression? then
          var slots :- ForObjectExpression(ctx, path, key);
          var items := SlotItems(slots, word, isJson);
          if items == [] then LibraryItems(reg, word, isJson) else Ok(items)
        else Ok([])
    case _ => Throws("infer.parentNode(jiveExpr).objType is undefined")
  }

  /** `completeModuleName` for an assignment `<left> = { ... }`: the group of
      `JiveDefinition` named by the second-to-last step of the target. */
  function ForAssignment(reg: Registry, left: Node, word: string, isJson: bool): Outcome<seq<Item>> {
    if !left.MemberExpression? || !left.obj.MemberExpression? then Throws("jiveExpr.left.object.property is undefined")
    else
      var group := if left.obj.property.Identifier? then left.obj.property.name else "undefined";
      var es :- JiveGroup(reg, group);
      Ok(SlotItems(BagSlots(reg, es), word, isJson))
  }

  /** `completeModuleName(jiveExpr, word, file)`; `id` is the value
      `generateComponentId` draws. */
  function Complete(ctx: Context, d: Descriptor, word: string, id: string): (r: Outcome<seq<Item>>)
    ensures r.Throws? ==> d.NodeDescriptor? && NodeAt(ctx.doc.ast, d.path).Some?
    ensures r.Throws? ==> NodeAt(ctx.doc.ast, d.path).value.AssignmentExpression? || NodeAt(ctx.doc.ast, d.path).value.Property?
  {
    var reg := ctx.reg;
    var isJson := IsJsonFile(ctx.doc.name);
    match d
    case BoolDescriptor => Ok(BoolItems(word))
    case DataDescriptor(table, entries) => Ok(DataItems(table, entries))
    case ThisDescriptor(component) => Ok(SlotItems(ForComponent(reg, component, Some(Prototype)), word, isJson))
    case NodeDescriptor(path) =>
      match NodeAt(ctx.doc.ast, path)
      case Some(AssignmentExpression(_, left, _)) => ForAssignment(reg, left, word, isJson)
      case Some(Property(key, value)) => ForProperty(ctx, path, key, value, word, id)
      case Some(MemberExpression(_, _)) => Ok(IdForMember(isJson, id, word))
      case _ => Ok([])
  }

  // ---------------------------------------------------------------------------
  // Properties

  /** Every label of a schema walk starts with the word and is not an
      `Object.prototype` name. */
  lemma SlotItemsStartWithWord(slots: seq<Slot>, word: string, isJson: bool)
    ensures forall item :: item in SlotItems(slots, word, isJson) ==>
      StartsWith(Label(item), word) && Label(item) !in ObjectPrototypeNames
  {
    var items := SlotItems(slots, word, isJson);
    forall item | item in items ensures StartsWith(Label(item), word) && Label(item) !in ObjectPrototypeNames {
      var i :| 0 <= i < |items| && items[i] == item;
      assert OfferedItem(slots, word, isJson, items[i]);
      var j :| 0 <= j < |slots| && Offered(slots[j], word)
        && slots[j].entry.name !in ObjectPrototypeNames && item == EntryItem(slots[j].entry, isJson);
    }
  }

  /** What the user has typed filters every list except a `!data` table's:
      each label starts with the word, and no label is listed twice. */
  lemma CompletionsMatchWord(ctx: Context, d: Descriptor, word: string, id: string)
    requires !d.DataDescriptor?
    requires Complete(ctx, d, word, id).Ok?
    ensures forall item :: item in Complete(ctx, d, word, id).value ==> StartsWith(Label(item), word)
    ensures LabelsDiffer(Complete(ctx, d, word, id).value)
  {
    var items := Complete(ctx, d, word, id).value;
    var isJson := IsJsonFile(ctx.doc.name);
    var reg := ctx.reg;
    match d
    case BoolDescriptor =>
    case ThisDescriptor(c) =>
      SlotItemsStartWithWord(ForComponent(reg, c, Some(Prototype)), word, isJson);
    case NodeDescriptor(path) =>
      match NodeAt(ctx.doc.ast, path)
      case Some(AssignmentExpression(_, left, _)) =>
        var group := if left.obj.property.Identifier? then left.obj.property.name else "undefined";
        SlotItemsStartWithWord(BagSlots(reg, JiveGroup(reg, group).value), word, isJson);
      case Some(Property(key, value)) =>
        ForPropertyMatchesWord(ctx, path, key, value, word, id);
      case Some(MemberExpression(_, _)) =>
      case _ =>
  }

  lemma ForPropertyMatchesWord(ctx: Context, path: Path, key: Node, value: Node, word: string, id: string)
    requires ForProperty(ctx, path, key, value, word, id).Ok?
    ensures forall item :: item in ForProperty(ctx, path, key, value, word, id).value ==> StartsWith(Label(item), word)
    ensures LabelsDiffer(ForProperty(ctx, path, key, value, word, id).value)
  {
    var reg := ctx.reg;
    var isJson := IsJsonFile(ctx.doc.name);
    if KeyIs(key, TypeKey) {
    } else if KeyIs(key, Components) {
    } else if KeyIs(key, Style) || KeyIs(key, BodyStyle) {
      SlotItemsStartWithWord(BagSlots(reg, reg.css), word, isJson);
    } else {
      ForSchemaPropertyMatchesWord(ctx, path, key, value, word);
    }
  }

  lemma LibraryItemsMatchWord(reg: Registry, word: string, isJson: bool)
    requires LibraryItems(reg, word, isJson).Ok?
    ensures forall item :: item in LibraryItems(reg, word, isJson).value ==> StartsWith(Label(item), word)
    ensures LabelsDiffer(LibraryItems(reg, word, isJson).value)
  {
    SlotItemsStartWithWord(BagSlots(reg, JiveGroup(reg, LibraryGroup).value), word, isJson);
  }

  lemma ForSchemaPropertyMatchesWord(ctx: Context, path: Path, key: Node, value: Node, word: string)
    requires ForSchemaProperty(ctx, path, key, value, word).Ok?
    ensures forall item :: item in ForSchemaProperty(ctx, path, key, value, word).value ==> StartsWith(Label(item), word)
    ensures LabelsDiffer(ForSchemaProperty(ctx, path, key, value, word).value)
  {
    var reg := ctx.reg;
    var isJson := IsJsonFile(ctx.doc.name);
    var parent := ParentPath(path).value;
    var typeName := NodeAt(ctx.doc.ast, parent).value.typeName;
    if typeName == Components {
      LibraryItemsMatchWord(reg, word, isJson);
    } else {
      var component := Resolve(ctx.server, ctx.doc, path).value;
      if component != "" {
        SlotItemsStartWithWord(ForComponent(reg, component, KeyName(key)), word, isJson);
      } else if value.ObjectExpression? {
        var slots := ForObjectExpression(ctx, path, key).value;
        if SlotItems(slots, word, isJson) == [] {
          LibraryItemsMatchWord(reg, word, isJson);
        } else {
          SlotItemsStartWithWord(slots, word, isJson);
        }
      }
    }
  }

  /** The Library groups are the fallback inside a nested object literal
      exactly when the entry the literal belongs to offers no member. */
  lemma LibraryIsTheFallback(ctx: Context, path: Path, key: Node, value: Node, word: string)
    requires value.ObjectExpression?
    requires |path| > 0 && NodeAt(ctx.doc.ast, path[..|path| - 1]).Some?
    requires var parent := NodeAt(ctx.doc.ast, path[..|path| - 1]).value;
      parent.ObjectExpression? && parent.typeName != Components
    requires Resolve(ctx.server, ctx.doc, path) == Ok("")
    requires ForObjectExpression(ctx, path, key).Ok?
    ensures var isJson := IsJsonFile(ctx.doc.name);
      var nested := SlotItems(ForObjectExpression(ctx, path, key).value, word, isJson);
      ForSchemaProperty(ctx, path, key, value, word)
        == if nested == [] then LibraryItems(ctx.reg, word, isJson) else Ok(nested)
  {
    assert ParentPath(path) == Ok(path[..|path| - 1]);
  }

  /** The constants of a `!data` table are offered whatever has been typed. */
  lemma DataItemsIgnoreWord(ctx: Context, table: string, entries: seq<Entry>, word: string, other: string, id: string)
    ensures Complete(ctx, DataDescriptor(table, entries), word, id) == Complete(ctx, DataDescriptor(table, entries), other, id)
    ensures Complete(ctx, DataDescriptor(table, entries), word, id) == Ok(DataItems(table, entries))
  {
  }

  /** After `this.` in a function of a definition, the first entry with a key
      in the component's own `prototype` group is offered, whatever its
      parents declare under that key. */
  lemma ThisOffersOwnPrototype(ctx: Context, component: string, word: string, id: string, j: nat)
    requires component != "" && component in ctx.reg.defs
    requires var own := OwnBag(ctx.reg.defs[component], Prototype);
      && own.Some? && j < |own.value|
      && StartsWith(own.value[j].name, word) && own.value[j].name !in ObjectPrototypeNames
      && forall i :: 0 <= i < j ==> own.value[i].name != own.value[j].name
    ensures Complete(ctx, ThisDescriptor(component), word, id).Ok?
    ensures EntryItem(OwnBag(ctx.reg.defs[component], Prototype).value[j], IsJsonFile(ctx.doc.name))
      in Complete(ctx, ThisDescriptor(component), word, id).value
  {
    OwnEntryShadowsParents(ctx.reg, component, Prototype, word, IsJsonFile(ctx.doc.name), j);
  }

  /** Inside `_DP.Definition.<group>.<name> = { ... }` the keys offered are the
      entries of `JiveDefinition`'s group of that name, filtered by the word;
      the request fails when that group does not exist. */
  lemma DefinitionAssignmentListsGroup(ctx: Context, path: Path, word: string, id: string)
    requires NodeAt(ctx.doc.ast, path).Some? && NodeAt(ctx.doc.ast, path).value.AssignmentExpression?
    requires IsDefinitionTarget(NodeAt(ctx.doc.ast, path).value.left)
    requires NodeAt(ctx.doc.ast, path).value.left.obj.property.Identifier?
    ensures var group := NodeAt(ctx.doc.ast, path).value.left.obj.property.name;
      Complete(ctx, NodeDescriptor(path), word, id).Ok? <==> JiveGroup(ctx.reg, group).Ok?
    ensures Complete(ctx, NodeDescriptor(path), word, id).Ok? ==>
      forall item :: item in Complete(ctx, NodeDescriptor(path), word, id).value ==>
        StartsWith(Label(item), word) && Label(item) !in ObjectPrototypeNames
    ensures var group := NodeAt(ctx.doc.ast, path).value.left.obj.property.name;
      Complete(ctx, NodeDescriptor(path), word, id).Ok? ==>
        ListsGroup(JiveGroup(ctx.reg, group).value, word, IsJsonFile(ctx.doc.name), Complete(ctx, NodeDescriptor(path), word, id).value)
  {
    var group := NodeAt(ctx.doc.ast, path).value.left.obj.property.name;
    var n := NodeAt(ctx.doc.ast, path).value;
    CompleteOnDefinition(ctx, path, n.operator, n.left, n.right, group, word, id);
    if JiveGroup(ctx.reg, group).Ok? {
      SlotItemsStartWithWord(BagSlots(ctx.reg, JiveGroup(ctx.reg, group).value), word, IsJsonFile(ctx.doc.name));
      GroupSlotItems(ctx.reg, JiveGroup(ctx.reg, group).value, word, IsJsonFile(ctx.doc.name));
    }
  }

  /** On a definition assignment the dispatch walks `JiveDefinition`'s group. */
  lemma CompleteOnDefinition(ctx: Context, path: Path, op: string, left: Node, right: Node, group: string, word: string, id: string)
    requires NodeAt(ctx.doc.ast, path) == Some(AssignmentExpression(op, left, right))
    requires left.MemberExpression? && left.obj.MemberExpression? && left.obj.property == Identifier(group)
    ensures Complete(ctx, NodeDescriptor(path), word, id).Ok? <==> JiveGroup(ctx.reg, group).Ok?
    ensures JiveGroup(ctx.reg, group).Ok? ==>
      Complete(ctx, NodeDescriptor(path), word, id).value
        == SlotItems(BagSlots(ctx.reg, JiveGroup(ctx.reg, group).value), word, IsJsonFile(ctx.doc.name))
  {
    assert Complete(ctx, NodeDescriptor(path), word, id) == ForAssignment(ctx.reg, left, word, IsJsonFile(ctx.doc.name));
    AssignmentWalksGroup(ctx.reg, left, group, word, IsJsonFile(ctx.doc.name));
  }

  lemma AssignmentWalksGroup(reg: Registry, left: Node, group: string, word: string, isJson: bool)
    requires left.MemberExpression? && left.obj.MemberExpression? && left.obj.property == Identifier(group)
    ensures ForAssignment(reg, left, word, isJson).Ok? <==> JiveGroup(reg, group).Ok?
    ensures JiveGroup(reg, group).Ok? ==>
      ForAssignment(reg, left, word, isJson).value == SlotItems(BagSlots(reg, JiveGroup(reg, group).value), word, isJson)
  {
  }

  /** The items listed for a group of entries: each is the item of an entry
      of the group that starts with the word and is not an `Object.prototype`
      name, and every such entry has its name listed. */
  predicate ListsGroup(es: seq<Entry>, word: string, isJson: bool, items: seq<Item>) {
    && (forall i :: 0 <= i < |items| ==> GroupItem(es, word, isJson, items[i]))
    && (forall k :: 0 <= k < |es| && StartsWith(es[k].name, word) && es[k].name !in ObjectPrototypeNames ==>
         exists i :: 0 <= i < |items| && Label(items[i]) == es[k].name)
  }

  /** The item of an entry of the group that starts with the word and is not
      an `Object.prototype` name. */
  predicate GroupItem(es: seq<Entry>, word: string, isJson: bool, item: Item) {
    exists k :: 0 <= k < |es| && StartsWith(es[k].name, word) && es[k].name !in ObjectPrototypeNames && item == EntryItem(es[k], isJson)
  }

  /** A walk over one group lists exactly that group's entries for the word;
      the `Object.prototype` members it also visits are never listed. */
  lemma GroupSlotItems(reg: Registry, es: seq<Entry>, word: string, isJson: bool)
    ensures ListsGroup(es, word, isJson, SlotItems(BagSlots(reg, es), word, isJson))
  {
    var slots := BagSlots(reg, es);
    var items := SlotItems(slots, word, isJson);
    forall i | 0 <= i < |items|
      ensures GroupItem(es, word, isJson, items[i])
    {
      assert OfferedItem(slots, word, isJson, items[i]);
      var j :| 0 <= j < |slots| && Offered(slots[j], word)
        && slots[j].entry.name !in ObjectPrototypeNames && items[i] == EntryItem(slots[j].entry, isJson);
      assert j < |es| && slots[j].entry == es[j];
      assert StartsWith(es[j].name, word) && es[j].name !in ObjectPrototypeNames && items[i] == EntryItem(es[j], isJson);
    }
    forall k | 0 <= k < |es| && StartsWith(es[k].name, word) && es[k].name !in ObjectPrototypeNames
      ensures exists i :: 0 <= i < |items| && Label(items[i]) == es[k].name
    {
      assert slots[k] == Slot(es[k], false);
    }
  }

  // ---------------------------------------------------------------------------
  // The dispatch of completeModuleName, branch by branch

  /** The cursor's node is a property `<key>: <value>` whose key is none of the
      keys the dispatch tests before consulting the schema. */
  predicate SchemaKeyedProperty(ctx: Context, path: Path, key: Node, value: Node) {
    && NodeAt(ctx.doc.ast, path) == Some(Property(key, value))
    && !KeyIs(key, TypeKey) && !KeyIs(key, Components) && !KeyIs(key, Style) && !KeyIs(key, BodyStyle)
  }

  /** On a property the dispatch is `ForProperty`. */
  lemma CompleteOnProperty(ctx: Context, path: Path, key: Node, value: Node, word: string, id: string)
    requires NodeAt(ctx.doc.ast, path) == Some(Property(key, value))
    ensures Complete(ctx, NodeDescriptor(path), word, id) == ForProperty(ctx, path, key, value, word, id)
  {
  }

  /** On a property with none of the fixed keys the schema decides. */
  lemma CompleteOnSchemaKey(ctx: Context, path: Path, key: Node, value: Node, word: string, id: string)
    requires SchemaKeyedProperty(ctx, path, key, value)
    ensures Complete(ctx, NodeDescriptor(path), word, id) == ForSchemaProperty(ctx, path, key, value, word)
  {
    CompleteOnProperty(ctx, path, key, value, word, id);
  }

  /** The schema's answer in an object literal typed `components`. */
  lemma SchemaPropertyInComponents(ctx: Context, path: Path, key: Node, value: Node, word: string)
    requires |path| > 0 && NodeAt(ctx.doc.ast, path[..|path| - 1]).Some?
    requires var parent := NodeAt(ctx.doc.ast, path[..|path| - 1]).value;
      parent.ObjectExpression? && parent.typeName == Components
    ensures ForSchemaProperty(ctx, path, key, value, word) == LibraryItems(ctx.reg, word, IsJsonFile(ctx.doc.name))
  {
    assert ParentPath(path) == Ok(path[..|path| - 1]);
  }

  /** The schema's answer for a property whose holder resolves to a component. */
  lemma SchemaPropertyOfComponent(ctx: Context, path: Path, key: Node, value: Node, word: string, c: string)
    requires |path| > 0 && NodeAt(ctx.doc.ast, path[..|path| - 1]).Some?
    requires var parent := NodeAt(ctx.doc.ast, path[..|path| - 1]).value;
      parent.ObjectExpression? && parent.typeName != Components
    requires Resolve(ctx.server, ctx.doc, path) == Ok(c) && c != ""
    ensures ForSchemaProperty(ctx, path, key, value, word)
      == Ok(SlotItems(ForComponent(ctx.reg, c, KeyName(key)), word, IsJsonFile(ctx.doc.name)))
  {
    assert ParentPath(path) == Ok(path[..|path| - 1]);
  }

  /** After a `type` key the component names are offered. */
  lemma TypeKeyListsComponentNames(ctx: Context, path: Path, value: Node, word: string, id: string)
    requires NodeAt(ctx.doc.ast, path) == Some(Property(Identifier(TypeKey), value))
    ensures Complete(ctx, NodeDescriptor(path), word, id) == Ok(ComponentNames(ctx.reg, word))
  {
  }

  /** After a `components` key, the generated id is offered when nothing is typed. */
  lemma ComponentsKeyOffersId(ctx: Context, path: Path, value: Node, word: string, id: string)
    requires NodeAt(ctx.doc.ast, path) == Some(Property(Identifier(Components), value))
    ensures Complete(ctx, NodeDescriptor(path), word, id) == Ok(IdForKey(IsJsonFile(ctx.doc.name), id, word))
  {
  }

  /** After a `style` or `bodyStyle` key the CSS style table is offered. */
  lemma StyleKeyListsCss(ctx: Context, path: Path, key: Node, value: Node, word: string, id: string)
    requires NodeAt(ctx.doc.ast, path) == Some(Property(key, value))
    requires KeyIs(key, Style) || KeyIs(key, BodyStyle)
    ensures Complete(ctx, NodeDescriptor(path), word, id).Ok?
    ensures ListsGroup(ctx.reg.css, word, IsJsonFile(ctx.doc.name), Complete(ctx, NodeDescriptor(path), word, id).value)
  {
    CompleteOnProperty(ctx, path, key, value, word, id);
    assert !KeyIs(key, TypeKey) && !KeyIs(key, Components);
    GroupSlotItems(ctx.reg, ctx.reg.css, word, IsJsonFile(ctx.doc.name));
  }

  /** A property of an object literal typed `components` is offered the
      `Library` groups. */
  lemma ComponentsParentListsLibrary(ctx: Context, path: Path, key: Node, value: Node, word: string, id: string)
    requires SchemaKeyedProperty(ctx, path, key, value)
    requires |path| > 0 && NodeAt(ctx.doc.ast, path[..|path| - 1]).Some?
    requires var parent := NodeAt(ctx.doc.ast, path[..|path| - 1]).value;
      parent.ObjectExpression? && parent.typeName == Components
    ensures Complete(ctx, NodeDescriptor(path), word, id) == LibraryItems(ctx.reg, word, IsJsonFile(ctx.doc.name))
    ensures Complete(ctx, NodeDescriptor(path), word, id).Ok? ==>
      ListsGroup(JiveGroup(ctx.reg, LibraryGroup).value, word, IsJsonFile(ctx.doc.name), Complete(ctx, NodeDescriptor(path), word, id).value)
  {
    CompleteOnSchemaKey(ctx, path, key, value, word, id);
    SchemaPropertyInComponents(ctx, path, key, value, word);
    if JiveGroup(ctx.reg, LibraryGroup).Ok? {
      GroupSlotItems(ctx.reg, JiveGroup(ctx.reg, LibraryGroup).value, word, IsJsonFile(ctx.doc.name));
    }
  }

  /** Inside `properties: { ... }`, `settings: { ... }` or `prototype: { ... }`
      of a resolved component, the first entry with a key in the component's
      own group is offered, whatever its parents declare under that key. */
  lemma ComponentKeyOffersOwnEntry(ctx: Context, path: Path, key: Node, value: Node, word: string, id: string, c: string, j: nat)
    requires SchemaKeyedProperty(ctx, path, key, value)
    requires |path| > 0 && NodeAt(ctx.doc.ast, path[..|path| - 1]).Some?
    requires var parent := NodeAt(ctx.doc.ast, path[..|path| - 1]).value;
      parent.ObjectExpression? && parent.typeName != Components
    requires Resolve(ctx.server, ctx.doc, path) == Ok(c) && c != "" && c in ctx.reg.defs
    requires KeyName(key).Some? && ComponentGroup(KeyName(key).value).Some?
    requires var own := OwnBag(ctx.reg.defs[c], ComponentGroup(KeyName(key).value).value);
      && own.Some? && j < |own.value|
      && StartsWith(own.value[j].name, word) && own.value[j].name !in ObjectPrototypeNames
      && forall i :: 0 <= i < j ==> own.value[i].name != own.value[j].name
    ensures Complete(ctx, NodeDescriptor(path), word, id).Ok?
    ensures EntryItem(OwnBag(ctx.reg.defs[c], ComponentGroup(KeyName(key).value).value).value[j], IsJsonFile(ctx.doc.name))
      in Complete(ctx, NodeDescriptor(path), word, id).value
  {
    CompleteOnSchemaKey(ctx, path, key, value, word, id);
    SchemaPropertyOfComponent(ctx, path, key, value, word, c);
    OwnEntryShadowsParents(ctx.reg, c, KeyName(key).value, word, IsJsonFile(ctx.doc.name), j);
  }

  /** Inside `properties: { ... }`, `settings: { ... }` or `prototype: { ... }`
      of a resolved component, an entry inherited from the `k`-th definition
      of its proto chain is offered when nothing offered before it in the walk
      has its key: a component that only names its parent gets its parent's
      entries. */
  lemma ComponentKeyOffersInheritedEntry(ctx: Context, path: Path, key: Node, value: Node, word: string, id: string, c: string, k: nat, j: nat)
    requires SchemaKeyedProperty(ctx, path, key, value)
    requires |path| > 0 && NodeAt(ctx.doc.ast, path[..|path| - 1]).Some?
    requires var parent := NodeAt(ctx.doc.ast, path[..|path| - 1]).value;
      parent.ObjectExpression? && parent.typeName != Components
    requires Resolve(ctx.server, ctx.doc, path) == Ok(c) && c != "" && c in ctx.reg.defs
    requires KeyName(key).Some? && ComponentGroup(KeyName(key).value).Some?
    requires k < |ProtoChain(ctx.reg, c)|
    requires var group := ComponentGroup(KeyName(key).value).value;
      var inherited := OwnBag(ctx.reg.defs[ProtoChain(ctx.reg, c)[k]], group);
      var before := SlotsBefore(ctx.reg, c, group, k);
      && inherited.Some? && j < |inherited.value|
      && StartsWith(inherited.value[j].name, word) && inherited.value[j].name !in ObjectPrototypeNames
      && (forall i :: 0 <= i < j ==> inherited.value[i].name != inherited.value[j].name)
      && forall i :: 0 <= i < |before| && Offered(before[i], word) ==> before[i].entry.name != inherited.value[j].name
    ensures Complete(ctx, NodeDescriptor(path), word, id).Ok?
    ensures EntryItem(OwnBag(ctx.reg.defs[ProtoChain(ctx.reg, c)[k]], ComponentGroup(KeyName(key).value).value).value[j], IsJsonFile(ctx.doc.name))
      in Complete(ctx, NodeDescriptor(path), word, id).value
  {
    CompleteOnSchemaKey(ctx, path, key, value, word, id);
    SchemaPropertyOfComponent(ctx, path, key, value, word, c);
    InheritedEntryIsOffered(ctx.reg, c, KeyName(key).value, word, IsJsonFile(ctx.doc.name), k, j);
  }

  /** A boolean slot is offered `true` and `false`. */
  lemma BoolSlotListsBoolItems(ctx: Context, word: string, id: string)
    ensures Complete(ctx, BoolDescriptor, word, id) == Ok(BoolItems(word))
  {
  }

  /** After a member expression, the generated id is offered when nothing is typed. */
  lemma MemberExpressionOffersId(ctx: Context, path: Path, obj: Node, property: Node, word: string, id: string)
    requires NodeAt(ctx.doc.ast, path) == Some(MemberExpression(obj, property))
    ensures Complete(ctx, NodeDescriptor(path), word, id) == Ok(IdForMember(IsJsonFile(ctx.doc.name), id, word))
  {
  }
}

=== FILE: gather.dfy ===
/** The de-duplicating collector behind every completion list (jive.js lines
    389-392, 477-490 and 498-518).

    A request keeps one table, `filterCompletion`, of the keys already listed.
    The table is an ordinary object literal, so JavaScript's `in` also finds the
    members of `Object.prototype` in it before anything has been added: a key
    such as `toString` is never listed. A candidate is listed when it passes
    its gatherer's own test (`eligible`) and its key is not yet in the table.
 */
module Gather {
  import opened Wrappers

  /** `Object.prototype`'s member names, which `key in {}` reports as present. */
  const ObjectPrototypeNames: set<string> := {
    "constructor", "__defineGetter__", "__defineSetter__", "hasOwnProperty",
    "__lookupGetter__", "__lookupSetter__", "isPrototypeOf", "propertyIsEnumerable",
    "toString", "valueOf", "__proto__", "toLocaleString"
  }

  /** One entry of a completion list. Gatherers fill different fields; a field
      a gatherer leaves out is `None`. */
  datatype Item = Item(name: string, displayName: Option<string>, ty: Option<string>, doc: Option<string>)

  /** One callback of a gatherer: the key it would record, the item it would
      list, and whether it passes the gatherer's own test. */
  datatype Candidate = Candidate(key: string, item: Item, eligible: bool)

  /** Candidate `j` is the first eligible candidate with its key. */
  predicate FirstOfKey(cs: seq<Candidate>, j: int)
    requires 0 <= j < |cs|
  {
    cs[j].eligible && forall k :: 0 <= k < j && cs[k].eligible ==> cs[k].key != cs[j].key
  }

  /** Some picked position holds a candidate with this key. */
  predicate Listing(cs: seq<Candidate>, picked: seq<nat>, key: string)
    requires forall i :: 0 <= i < |picked| ==> picked[i] < |cs|
  {
    exists i :: 0 <= i < |picked| && cs[picked[i]].key == key
  }

  /** `filterCompletion` test: the key is neither an `Object.prototype` name
      nor listed already. */
  predicate Takes(cs: seq<Candidate>, seen: set<string>, picked: seq<nat>, n: nat)
    requires n < |cs| && forall i :: 0 <= i < |picked| ==> picked[i] < |cs|
  {
    cs[n].eligible && cs[n].key !in seen && !Listing(cs, picked, cs[n].key)
  }

  /** Every picked position holds the first eligible candidate of its key, and
      that key was not seen before. */
  predicate FirstUnseen(cs: seq<Candidate>, seen: set<string>, picked: seq<nat>)
    requires forall i :: 0 <= i < |picked| ==> picked[i] < |cs|
  {
    forall i :: 0 <= i < |picked| ==> FirstOfKey(cs, picked[i]) && cs[picked[i]].key !in seen
  }

  /** Every eligible candidate with a key not seen before has its key listed. */
  predicate Covers(cs: seq<Candidate>, seen: set<string>, picked: seq<nat>)
    requires forall i :: 0 <= i < |picked| ==> picked[i] < |cs|
  {
    forall k :: 0 <= k < |cs| && cs[k].eligible && cs[k].key !in seen ==> Listing(cs, picked, cs[k].key)
  }

  /** The picked positions hold pairwise different keys. */
  predicate KeysDiffer(cs: seq<Candidate>, picked: seq<nat>)
    requires forall i :: 0 <= i < |picked| ==> picked[i] < |cs|
  {
    forall i, j :: 0 <= i < j < |picked| ==> cs[picked[i]].key != cs[picked[j]].key
  }

  /** The positions of the candidates that end up listed, in callback order:
      an eligible candidate is taken unless its key was seen before. */
  function Pick(cs: seq<Candidate>, seen: set<string>): (picked: seq<nat>)
    ensures forall i :: 0 <= i < |picked| ==> picked[i] < |cs|
    ensures forall i, j :: 0 <= i < j < |picked| ==> picked[i] < picked[j]
    decreases |cs|
  {
    if cs == [] then []
    else
      var n := |cs| - 1;
      var prev := Pick(cs[..n], seen);
      if Takes(cs, seen, prev, n) then prev + [n] else prev
  }

  /** Every picked candidate is the first eligible one of its key, and its key
      was not seen before. */
  lemma {:induction false} PickedAreFirstUnseen(cs: seq<Candidate>, seen: set<string>)
    ensures FirstUnseen(cs, seen, Pick(cs, seen))
    decreases |cs|
  {
    if cs != [] {
      var n := |cs| - 1;
      var front := cs[..n];
      var prev := Pick(front, seen);
      PickedAreFirstUnseen(front, seen);
      PickIsComplete(front, seen);
      assert FirstUnseen(front, seen, prev);
      forall i | 0 <= i < |prev| ensures FirstOfKey(cs, prev[i]) {
        assert FirstOfKey(front, prev[i]);
        forall k | 0 <= k < prev[i] ensures front[k] == cs[k] { }
      }
      if Takes(cs, seen, prev, n) {
        forall k | 0 <= k < n && cs[k].eligible ensures cs[k].key != cs[n].key {
          assert front[k] == cs[k];
          if cs[k].key !in seen {
            var i :| 0 <= i < |prev| && front[prev[i]].key == front[k].key;
            assert front[prev[i]] == cs[prev[i]];
          }
        }
      }
    }
  }

  /** Every eligible candidate whose key was not seen before is listed: some
      picked candidate has its key. */
  lemma {:induction false} PickIsComplete(cs: seq<Candidate>, seen: set<string>)
    ensures Covers(cs, seen, Pick(cs, seen))
    decreases |cs|
  {
    if cs != [] {
      var n := |cs| - 1;
      var front := cs[..n];
      var prev := Pick(front, seen);
      var picked := Pick(cs, seen);
      PickIsComplete(front, seen);
      assert Covers(front, seen, prev);
      assert |prev| <= |picked| && forall i :: 0 <= i < |prev| ==> picked[i] == prev[i];
      forall k | 0 <= k < |cs| && cs[k].eligible && cs[k].key !in seen
        ensures Listing(cs, picked, cs[k].key)
      {
        if k < n {
          assert front[k] == cs[k];
          assert Listing(front, prev, front[k].key);
          var i :| 0 <= i < |prev| && front[prev[i]].key == front[k].key;
          assert front[prev[i]] == cs[picked[i]];
        } else if Listing(cs, prev, cs[n].key) {
          var i :| 0 <= i < |prev| && cs[prev[i]].key == cs[n].key;
          assert cs[picked[i]].key == cs[k].key;
        } else {
          assert picked[|prev|] == n;
        }
      }
    }
  }

  /** The items of the picked candidates, in order. */
  function Listed(cs: seq<Candidate>, seen: set<string>): (items: seq<Item>)
    ensures |items| == |Pick(cs, seen)|
    ensures forall i :: 0 <= i < |items| ==> items[i] == cs[Pick(cs, seen)[i]].item
  {
    var picked := Pick(cs, seen);
    seq(|picked|, i requires 0 <= i < |picked| => cs[picked[i]].item)
  }

  /** Nothing is listed twice: the picked keys are pairwise different. */
  lemma PickedKeysDiffer(cs: seq<Candidate>, seen: set<string>)
    ensures KeysDiffer(cs, Pick(cs, seen))
  {
    var picked := Pick(cs, seen);
    PickedAreFirstUnseen(cs, seen);
    forall i, j | 0 <= i < j < |picked| ensures cs[picked[i]].key != cs[picked[j]].key {
      assert FirstOfKey(cs, picked[j]);
      assert cs[picked[i]].eligible;
    }
  }

  /** The candidates picked are exactly the first eligible candidate of every
      key not seen before. */
  lemma PickedIffFirstUnseen(cs: seq<Candidate>, seen: set<string>, k: nat)
    requires k < |cs|
    ensures k in Pick(cs, seen) <==> FirstOfKey(cs, k) && cs[k].key !in seen
  {
    var picked := Pick(cs, seen);
    PickedAreFirstUnseen(cs, seen);
    PickIsComplete(cs, seen);
    if FirstOfKey(cs, k) && cs[k].key !in seen {
      assert Listing(cs, picked, cs[k].key);
      var i :| 0 <= i < |picked| && cs[picked[i]].key == cs[k].key;
      assert FirstOfKey(cs, picked[i]);
      assert picked[i] == k;
    }
  }
}

=== FILE: imports.dfy ===
/** The import declarations of a document (jive.js lines 89-101): every line of
    the form `//@import <file>` names a document whose definitions the component
    resolver may consult.
 */
module Imports {
  import opened Wrappers
  import opened Strings

  /** The characters at which a JavaScript multiline `^`/`$` anchors a line and
      which `.` does not match. */
  const LineTerminators: set<char> := {'\n', '\r', '\U{2028}', '\U{2029}'}

  const ImportDirective: string := "//@import "

  /** A whole line matched by `/^\/\/@import .+?$/m`: the directive followed by at
      least one character. */
  predicate IsImportLine(line: string) {
    |line| > |ImportDirective| && line[..|ImportDirective|] == ImportDirective
  }

  /** `val.split(' ')[1]` when it is non-empty, otherwise `undefined` (`None`). */
  function ImportToken(line: string): (r: Option<string>)
    ensures r.Some? ==> r.value != "" && Free(r.value, {' '})
    ensures IsImportLine(line) && r.Some? ==> StartsWith(line, ImportDirective + r.value)
  {
    var parts := Split(line, {' '});
    if |parts| > 1 && parts[1] != "" then
      if IsImportLine(line) then
        ImportTokenAfterDirective(line[|ImportDirective|..]);
        assert line == ImportDirective + line[|ImportDirective|..];
        Some(parts[1])
      else Some(parts[1])
    else None
  }

  /** On an import line the token is the run of non-space characters right after
      the directive, and it is missing exactly when a second space follows it. */
  lemma ImportTokenAfterDirective(rest: string)
    ensures var parts := Split(ImportDirective + rest, {' '});
      var w := Split(rest, {' '})[0];
      && |parts| > 1 && parts[1] == w
      && StartsWith(rest, w) && (|w| == |rest| || rest[|w|] == ' ')
  {
    var head := "//@import";
    assert Free(head, {' '});
    assert ImportDirective + rest == head + [' '] + rest;
    SplitAfterHead(head, ' ', rest, {' '});
    SplitFirst(rest, {' '});
  }

  /** The tokens of the import lines among `lines`, in order. */
  function ImportsOf(lines: seq<string>): (files: seq<Option<string>>)
    ensures |files| <= |lines|
    ensures forall k :: 0 <= k < |files| && files[k].Some? ==> files[k].value != "" && Free(files[k].value, {' '})
    ensures (forall j :: 0 <= j < |lines| ==> !IsImportLine(lines[j])) ==> files == []
    ensures forall k :: 0 <= k < |files| && files[k].Some? ==>
      exists j :: 0 <= j < |lines| && IsImportLine(lines[j]) && StartsWith(lines[j], ImportDirective + files[k].value)
  {
    if lines == [] then []
    else
      var rest := ImportsOf(lines[1..]);
      assert forall k :: 0 <= k < |rest| && rest[k].Some? ==>
        exists j :: 0 <= j < |lines| && IsImportLine(lines[j]) && StartsWith(lines[j], ImportDirective + rest[k].value) by {
        forall k | 0 <= k < |rest| && rest[k].Some?
          ensures exists j :: 0 <= j < |lines| && IsImportLine(lines[j]) && StartsWith(lines[j], ImportDirective + rest[k].value)
        {
          var j :| 0 <= j < |lines[1..]| && IsImportLine(lines[1..][j]) && StartsWith(lines[1..][j], ImportDirective + rest[k].value);
          assert lines[j + 1] == lines[1..][j];
        }
      }
      if IsImportLine(lines[0]) then [ImportToken(lines[0])] + rest else rest
  }

  /** The lines of a text, as the multiline anchors delimit them. */
  function Lines(text: string): (lines: seq<string>)
    ensures |lines| >= 1
    ensures forall j :: 0 <= j < |lines| ==> Free(lines[j], LineTerminators)
  {
    Split(text, LineTerminators)
  }

  /** `getImportFiles(text)`: one entry per import line of the text, in source
      order; an entry is `None` where the source yields `undefined`. Each named file
      is a non-empty token without spaces or line breaks that follows the directive
      at the start of some line. */
  function GetImportFiles(text: string): (files: seq<Option<string>>)
    ensures forall k :: 0 <= k < |files| && files[k].Some? ==>
      files[k].value != "" && Free(files[k].value, {' '}) && Free(files[k].value, LineTerminators)
    ensures forall k :: 0 <= k < |files| && files[k].Some? ==>
      exists j :: 0 <= j < |Lines(text)| && IsImportLine(Lines(text)[j])
        && StartsWith(Lines(text)[j], ImportDirective + files[k].value)
  {
    var files := ImportsOf(Lines(text));
    TokensHaveNoLineBreak(Lines(text), files);
    files
  }

  lemma TokensHaveNoLineBreak(lines: seq<string>, files: seq<Option<string>>)
    requires forall j :: 0 <= j < |lines| ==> Free(lines[j], LineTerminators)
    requires files == ImportsOf(lines)
    ensures forall k :: 0 <= k < |files| && files[k].Some? ==> Free(files[k].value, LineTerminators)
  {
    forall k | 0 <= k < |files| && files[k].Some?
      ensures Free(files[k].value, LineTerminators)
    {
      var j :| 0 <= j < |lines| && IsImportLine(lines[j]) && StartsWith(lines[j], ImportDirective + files[k].value);
      PrefixedPartIsFree(lines[j], ImportDirective, files[k].value, LineTerminators);
    }
  }

  /** What follows a prefix at the start of a line has no character the line lacks. */
  lemma PrefixedPartIsFree(line: string, prefix: string, v: string, seps: set<char>)
    requires Free(line, seps) && StartsWith(line, prefix + v)
    ensures Free(v, seps)
  {
    forall i | 0 <= i < |v| ensures v[i] !in seps {
      assert v[i] == (prefix + v)[|prefix| + i] == line[|prefix| + i];
    }
  }

  /** Imports of consecutive lines concatenate. */
  lemma {:induction false} ImportsOfAppend(a: seq<string>, b: seq<string>)
    ensures ImportsOf(a + b) == ImportsOf(a) + ImportsOf(b)
    decreases |a|
  {
    if a != [] {
      assert (a + b)[1..] == a[1..] + b;
      ImportsOfAppend(a[1..], b);
    } else {
      assert a + b == b;
    }
  }

  /** Source order: the imports of two texts joined by a line break are the imports
      of the first followed by those of the second. */
  lemma ImportFilesAppend(a: string, b: string)
    ensures GetImportFiles(a + "\n" + b) == GetImportFiles(a) + GetImportFiles(b)
  {
    SplitAppend(a, '\n', b, LineTerminators);
    assert Lines(a + "\n" + b) == Lines(a) + Lines(b);
    ImportsOfAppend(Split(a, LineTerminators), Split(b, LineTerminators));
  }

  /** A single well-formed import line yields exactly its file name. */
  lemma ImportFilesOfOneLine(name: string)
    requires name != "" && Free(name, {' '} + LineTerminators)
    ensures GetImportFiles(ImportDirective + name) == [Some(name)]
  {
    var line := ImportDirective + name;
    assert Free(line, LineTerminators) by {
      forall k | 0 <= k < |line| ensures line[k] !in LineTerminators {
        if k >= |ImportDirective| {
          assert line[k] == name[k - |ImportDirective|];
        }
      }
    }
    SplitFree(line, LineTerminators);
    assert line[..|ImportDirective|] == ImportDirective;
    ImportTokenAfterDirective(name);
    SplitFree(name, {' '});
    assert ImportsOf([line]) == [ImportToken(line)];
  }

  /** A directive followed by a second space is matched by the pattern but has no
      file token: its entry is `undefined`. */
  lemma MalformedImportLine(rest: string)
    requires Free(rest, LineTerminators)
    ensures GetImportFiles(ImportDirective + " " + rest) == [None]
  {
    var line := ImportDirective + " " + rest;
    assert Free(line, LineTerminators) by {
      forall k | 0 <= k < |line| ensures line[k] !in LineTerminators {
        if k > |ImportDirective| {
          assert line[k] == rest[k - |ImportDirective| - 1];
        }
      }
    }
    SplitFree(line, LineTerminators);
    assert line[..|ImportDirective|] == ImportDirective;
    assert line == ImportDirective + (" " + rest);
    ImportTokenAfterDirective(" " + rest);
    assert (" " + rest)[0] == ' ';
    assert Split(" " + rest, {' '})[0] == "";
    assert ImportsOf([line]) == [ImportToken(line)];
  }
}

=== FILE: paths.dfy ===
/** Path and file-name helpers of the plugin (jive.js lines 38-69): absolute-path
    tests, resolution of an import name against the project directory, and the
    test for the JSON dialect of definition files.
 */
module Paths {
  import opened Strings

  /** `uri.charAt(1) === ':'`: a drive-letter path such as `C:\work`. */
  predicate IsWinPath(uri: string) {
    |uri| > 1 && uri[1] == ':'
  }

  /** `uri.charAt(0) === '/' || uri.charAt(1) === ':'`; `charAt` past the end is
      the empty string, so the empty uri is not a full path. */
  predicate IsFullPath(uri: string) {
    (|uri| > 0 && uri[0] == '/') || IsWinPath(uri)
  }

  /** `getFullPath`: a full path is returned unchanged; any other name is appended
      to the project directory, and when that directory is a drive-letter path
      every `/` of the joined path becomes `\`. The project directory is the
      server's `projectDir`, passed in. */
  function GetFullPath(projectDir: string, uri: string): (r: string)
    ensures IsFullPath(uri) ==> r == uri
    ensures !IsFullPath(uri) ==> |r| == |projectDir| + |uri|
    ensures !IsFullPath(uri) && !IsWinPath(projectDir) ==> r == projectDir + uri
    ensures !IsFullPath(uri) && IsWinPath(projectDir) ==>
      forall i :: 0 <= i < |r| ==> r[i] == (if (projectDir + uri)[i] == '/' then '\\' else (projectDir + uri)[i])
  {
    if IsFullPath(uri) then uri
    else
      var fullPath := projectDir + uri;
      if IsWinPath(projectDir) then ReplaceAll(fullPath, '/', '\\') else fullPath
  }

  /** Resolving against a project directory that is itself a full path yields a full path. */
  lemma GetFullPathIsFull(projectDir: string, uri: string)
    requires IsFullPath(projectDir)
    ensures IsFullPath(GetFullPath(projectDir, uri))
  {
    if !IsFullPath(uri) {
      var r := GetFullPath(projectDir, uri);
      if IsWinPath(projectDir) {
        assert (projectDir + uri)[1] == ':';
        assert r[1] == ':';
      } else {
        assert r[0] == projectDir[0];
      }
    }
  }

  /** Hence resolution is idempotent under such a project directory. */
  lemma GetFullPathIdempotent(projectDir: string, uri: string)
    requires IsFullPath(projectDir)
    ensures GetFullPath(projectDir, GetFullPath(projectDir, uri)) == GetFullPath(projectDir, uri)
  {
    GetFullPathIsFull(projectDir, uri);
  }

  /** `isJSONFile`: the text after the last `.` of the name, lower-cased, is `json`.
      A name without a dot is its own last piece. */
  predicate IsJsonFile(filename: string) {
    Lower(Last(Split(filename, {'.'}))) == "json"
  }

  /** The same test stated without splitting: the name ends in four characters that
      lower-case to `json`, and these are either the whole name or follow a dot. */
  lemma JsonFileByExtension(filename: string)
    ensures IsJsonFile(filename) <==>
      (|filename| >= 4 && Lower(filename[|filename| - 4..]) == "json"
        && (|filename| == 4 || filename[|filename| - 5] == '.'))
  {
    var f := filename;
    var parts := Split(f, {'.'});
    var l := Last(parts);
    SplitLast(f, {'.'});
    assert Free(l, {'.'});
    if IsJsonFile(f) {
      assert |Lower(l)| == 4;
      assert l == f[|f| - 4..];
    }
    if |f| >= 4 && Lower(f[|f| - 4..]) == "json" && (|f| == 4 || f[|f| - 5] == '.') {
      var t := f[|f| - 4..];
      assert l == t;
    }
  }
}

=== FILE: plugin.dfy ===
/** The completion handler `findCompletions` (jive.js lines 134-164).

    The handler finds the word before the cursor, asks the classifier what the
    cursor is on, and asks the generator for the candidates. Without a
    descriptor it answers nothing, so Tern's own completions stand. Unless the
    query asks for types, docs, urls or origins, only the names are sent.
 */
module Plugin {
  import opened Wrappers
  import opened Strings
  import opened Words
  import opened Project
  import opened Classifier
  import opened Gather
  import opened Completion

  /** The list sent back: whole items, or their names only. */
  datatype Listing = Detailed(items: seq<Item>) | NamesOnly(names: seq<string>)

  /** The answer: the offsets of the word being completed, and the list.
      The `isProperty` and `isObjectKey` flags are always set and not kept. */
  datatype Response = Response(start: nat, end: nat, completions: Listing)

  /** `completionSets.map(n => n.name)`. */
  function Names(items: seq<Item>): (names: seq<string>)
    ensures |names| == |items|
    ensures forall i :: 0 <= i < |items| ==> names[i] == items[i].name
  {
    seq(|items|, i requires 0 <= i < |items| => items[i].name)
  }

  /** `text[start..cursor]` is the maximal identifier word that ends at the cursor. */
  predicate WordBefore(text: string, start: nat, cursor: nat) {
    && start <= cursor <= |text|
    && (forall i :: start <= i < cursor ==> IsIdentifierChar(text[i]))
    && (start == 0 || !IsIdentifierChar(text[start - 1]))
  }

  /** The list sent for descriptor `d` and the word: what the generator gives,
      whole or by name. */
  predicate Lists(ctx: Context, d: Descriptor, word: string, id: string, detailed: bool, listing: Listing) {
    && Complete(ctx, d, word, id).Ok?
    && listing == if detailed then Detailed(Complete(ctx, d, word, id).value) else NamesOnly(Names(Complete(ctx, d, word, id).value))
  }

  /** `findCompletions(file, query)`. `cursor` is the offset `tern.resolvePos`
      returns, `detailed` says whether the query asks for types, docs, urls or
      origins, `locate` answers the engine's position queries and `id` is the
      value `generateComponentId` draws. */
  method FindCompletions(ctx: Context, cursor: nat, detailed: bool, locate: nat -> Hits, id: string)
    returns (r: Outcome<Option<Response>>)
    requires cursor <= |ctx.doc.text|
    ensures FindJiveExpression(ctx, cursor, locate).Throws? ==> r.Throws?
    ensures FindJiveExpression(ctx, cursor, locate) == Ok(None) <==> r == Ok(None)
    ensures r.Ok? && r.value.Some? ==>
      && FindJiveExpression(ctx, cursor, locate).Ok? && FindJiveExpression(ctx, cursor, locate).value.Some?
      && WordBefore(ctx.doc.text, r.value.value.start, cursor) && r.value.value.end == cursor
      && Lists(ctx, FindJiveExpression(ctx, cursor, locate).value.value, ctx.doc.text[r.value.value.start..cursor], id, detailed,
           r.value.value.completions)
  {
    var wordStart := FindWordStart(ctx.doc.text, cursor);
    var word := ctx.doc.text[wordStart..cursor];
    var found := FindJiveExpression(ctx, cursor, locate);
    if found.Throws? {
      return Throws(found.error);
    }
    if found.value.None? {
      return Ok(None);
    }
    var items := Complete(ctx, found.value.value, word, id);
    if items.Throws? {
      return Throws(items.error);
    }
    var listing := if detailed then Detailed(items.value) else NamesOnly(Names(items.value));
    assert WordBefore(ctx.doc.text, wordStart, cursor);
    assert Lists(ctx, found.value.value, word, id, detailed, listing);
    return Ok(Some(Response(wordStart, cursor, listing)));
  }
}

=== FILE: project.dfy ===
/** Documents and the server's file map.

    A document keeps the text the editor shows and the syntax tree the parser
    built from the text after the parse hook (see `Words.PreParse`). The server
    maps file names to loaded documents and knows the project directory. Loading
    a file is input/output and happens before a request is answered, so the map
    is given.
 */
module Project {
  import opened Wrappers
  import opened Syntax
  import opened Paths
  import opened Schema

  datatype Document = Document(name: string, text: string, ast: Node)

  datatype Server = Server(fileMap: map<string, Document>, projectDir: string)

  /** What a completion request sees: the server, the loaded schema and the
      document being edited. */
  datatype Context = Context(server: Server, reg: Registry, doc: Document)

  /** `srv.fileMap[getFullPath(name)] || srv.fileMap[name]`. */
  function ImportedDocument(server: Server, name: string): (r: Option<Document>)
    ensures r.Some? ==> r.value in server.fileMap.Values
    ensures r.None? <==> GetFullPath(server.projectDir, name) !in server.fileMap && name !in server.fileMap
    ensures GetFullPath(server.projectDir, name) in server.fileMap ==>
      r == Some(server.fileMap[GetFullPath(server.projectDir, name)])
  {
    var full := GetFullPath(server.projectDir, name);
    if full in server.fileMap then Some(server.fileMap[full])
    else if name in server.fileMap then Some(server.fileMap[name])
    else None
  }
}

=== FILE: resolver.dfy ===
/** The component-identity resolver `getJiveComponent` (jive.js lines 580-656).

    Given a node, the resolver looks at the object literal that contains it and
    names the component that object describes, by three strategies in priority
    order:
      1. the object's own `type` property;
      2. its `libraryComponentId`, looked up among the `x.<id> = { type: ... }`
         assignments of the imported documents;
      3. the inferred type name of the object, looked up among the
         `<name>: { type: ... }` properties of the imported documents.
    The empty string means that no strategy found a name. Every strategy keeps
    the first non-empty name it meets, so one idea, `FirstNonEmpty`, carries the
    priority and "first file wins" rules.

    Two versions are given. The `AsWritten` functions follow the source exactly,
    including the two places where it reads a property of `undefined` (see
    `## Findings` of README.md). The corrected functions skip those inputs
    instead, and the rest of the model uses them.
 */
module Resolver {
  import opened Wrappers
  import opened Strings
  import opened Syntax
  import opened Imports
  import opened Paths
  import opened Project

  const TypeKey: string := "type"
  const LibraryComponentIdKey: string := "libraryComponentId"

  /** `f` applied to every element. */
  function Map<A, B>(f: A -> B, xs: seq<A>): (ys: seq<B>)
    ensures |ys| == |xs|
    ensures forall i :: 0 <= i < |xs| ==> ys[i] == f(xs[i])
  {
    seq(|xs|, i requires 0 <= i < |xs| => f(xs[i]))
  }

  lemma MapAppend<A, B>(f: A -> B, a: seq<A>, b: seq<A>)
    ensures Map(f, a + b) == Map(f, a) + Map(f, b)
  {
    var xs := Map(f, a + b);
    var ys := Map(f, a) + Map(f, b);
    forall k | 0 <= k < |xs| ensures xs[k] == ys[k] {
      if k < |a| {
        assert (a + b)[k] == a[k];
      } else {
        assert (a + b)[k] == b[k - |a|];
      }
    }
  }

  /** The first non-empty string of `xs`, or "" when all are empty. */
  function FirstNonEmpty(xs: seq<string>): (r: string)
    ensures r == "" <==> forall i :: 0 <= i < |xs| ==> xs[i] == ""
    ensures r != "" ==> exists i :: 0 <= i < |xs| && xs[i] == r && forall j :: 0 <= j < i ==> xs[j] == ""
    decreases |xs|
  {
    if xs == [] then ""
    else if xs[0] != "" then xs[0]
    else
      var r := FirstNonEmpty(xs[1..]);
      assert forall i :: 1 <= i < |xs| ==> xs[i] == xs[1..][i - 1];
      if r != "" then
        var i :| 0 <= i < |xs[1..]| && xs[1..][i] == r && forall j :: 0 <= j < i ==> xs[1..][j] == "";
        assert xs[i + 1] == r;
        r
      else r
  }

  /** Once a name is found, what follows cannot change it; before that, what
      follows decides. */
  lemma {:induction false} FirstNonEmptyAppend(a: seq<string>, b: seq<string>)
    ensures FirstNonEmpty(a + b) == if FirstNonEmpty(a) != "" then FirstNonEmpty(a) else FirstNonEmpty(b)
    decreases |a|
  {
    if a == [] {
      assert a + b == b;
    } else if a[0] == "" {
      assert (a + b)[1..] == a[1..] + b;
      FirstNonEmptyAppend(a[1..], b);
    } else {
      assert (a + b)[0] == a[0];
    }
  }

  /** An entry that found nothing can be dropped without changing the result. */
  lemma FirstNonEmptySkipsEmpty(a: seq<string>, b: seq<string>)
    ensures FirstNonEmpty(a + [""] + b) == FirstNonEmpty(a + b)
  {
    assert a + [""] + b == a + ([""] + b);
    FirstNonEmptyAppend(a, [""] + b);
    FirstNonEmptyAppend(a, b);
    FirstNonEmptyAppend([""], b);
  }

  predicate IsPropertyWithKey(n: Node, key: string) {
    n.Property? && KeyIs(n.key, key)
  }

  /** `properties.some(...)` looking for one key: the first property with that
      key decides, and its value counts only if it is a string literal. */
  function PropertyValue(props: seq<Node>, key: string): (v: string)
    ensures (forall i :: 0 <= i < |props| ==> !IsPropertyWithKey(props[i], key)) ==> v == ""
    ensures (exists i :: 0 <= i < |props| && IsPropertyWithKey(props[i], key)) ==>
      exists i :: 0 <= i < |props| && IsPropertyWithKey(props[i], key) && v == StringValue(props[i].value)
        && forall j :: 0 <= j < i ==> !IsPropertyWithKey(props[j], key)
    decreases |props|
  {
    if props == [] then ""
    else if IsPropertyWithKey(props[0], key) then StringValue(props[0].value)
    else
      var v := PropertyValue(props[1..], key);
      assert forall i :: 1 <= i < |props| ==> props[i] == props[1..][i - 1];
      if exists i :: 0 <= i < |props[1..]| && IsPropertyWithKey(props[1..][i], key) then
        var i :| 0 <= i < |props[1..]| && IsPropertyWithKey(props[1..][i], key) && v == StringValue(props[1..][i].value)
          && forall j :: 0 <= j < i ==> !IsPropertyWithKey(props[1..][j], key);
        assert props[i + 1] == props[1..][i];
        v
      else v
  }

  /** The component an object literal names itself (`type: '...'`). */
  function LocalType(props: seq<Node>): string {
    PropertyValue(props, TypeKey)
  }

  /** The two lookups in imported documents. */
  datatype Strategy =
    | ById(id: string)       // `<target>.<id> = { type: ... }`
    | ByName(name: string)   // `<name>: { type: ... }`

  /** What one node visited by the walk contributes (corrected: a node of an
      unexpected shape contributes nothing). */
  function Contribution(s: Strategy, n: Node): (r: string)
    ensures r != "" ==> match s
      case ById(id) =>
        && n.AssignmentExpression? && n.operator == "="
        && n.left.MemberExpression? && n.left.property == Identifier(id)
        && n.right.ObjectExpression? && r == LocalType(n.right.properties)
      case ByName(name) =>
        && n.Property? && n.key == Identifier(name)
        && n.value.ObjectExpression? && r == LocalType(n.value.properties)
    ensures (s.ById? && n.AssignmentExpression? && n.operator == "=" && n.left.MemberExpression?
             && n.left.property == Identifier(s.id) && n.right.ObjectExpression?) ==>
      r == LocalType(n.right.properties)
    ensures (s.ByName? && n.Property? && n.key == Identifier(s.name) && n.value.ObjectExpression?) ==>
      r == LocalType(n.value.properties)
  {
    match s
    case ById(id) =>
      (match n
       case AssignmentExpression(op, MemberExpression(_, Identifier(p)), ObjectExpression(props, _)) =>
         if op == "=" && p == id then LocalType(props) else ""
       case _ => "")
    case ByName(name) =>
      (match n
       case Property(Identifier(k), ObjectExpression(props, _)) =>
         if k == name then LocalType(props) else ""
       case _ => "")
  }

  function Contributions(s: Strategy, nodes: seq<Node>): (xs: seq<string>)
    ensures |xs| == |nodes|
    ensures forall i :: 0 <= i < |nodes| ==> xs[i] == Contribution(s, nodes[i])
  {
    Map(ContributionOf(s), nodes)
  }

  function ContributionOf(s: Strategy): Node -> string {
    n => Contribution(s, n)
  }

  /** `walk.simple` with the `!componentName` guard: the first visited node
      that contributes a name decides. */
  function FirstIn(s: Strategy, nodes: seq<Node>): (r: string)
    ensures r == "" <==> forall i :: 0 <= i < |nodes| ==> Contribution(s, nodes[i]) == ""
    ensures r != "" ==>
      exists i :: 0 <= i < |nodes| && Contribution(s, nodes[i]) == r
        && forall j :: 0 <= j < i ==> Contribution(s, nodes[j]) == ""
  {
    var xs := Contributions(s, nodes);
    var found := FirstNonEmpty(xs);
    if found != "" then
      var i :| 0 <= i < |xs| && xs[i] == found && forall j :: 0 <= j < i ==> xs[j] == "";
      assert Contribution(s, nodes[i]) == found;
      found
    else found
  }

  /** The walk visits a document's nodes in post-order. */
  function InDocument(s: Strategy, d: Document): string {
    FirstIn(s, PostOrder(d.ast))
  }

  /** What one entry of the import list contributes: nothing for a missing
      token or a file that is not loaded. */
  function FromImport(server: Server, entry: Option<string>, s: Strategy): string {
    match entry
    case None => ""
    case Some(f) =>
      match ImportedDocument(server, f)
      case None => ""
      case Some(d) => InDocument(s, d)
  }

  function ImportResults(server: Server, files: seq<Option<string>>, s: Strategy): (xs: seq<string>)
    ensures |xs| == |files|
    ensures forall k :: 0 <= k < |files| ==> xs[k] == FromImport(server, files[k], s)
  {
    Map(FromImportOf(server, s), files)
  }

  function FromImportOf(server: Server, s: Strategy): Option<string> -> string {
    e => FromImport(server, e, s)
  }

  /** The results of consecutive import lists concatenate. */
  lemma ImportResultsAppend(server: Server, a: seq<Option<string>>, b: seq<Option<string>>, s: Strategy)
    ensures ImportResults(server, a + b, s) == ImportResults(server, a, s) + ImportResults(server, b, s)
  {
    MapAppend(FromImportOf(server, s), a, b);
  }

  /** No import before the `k`-th yields a name. */
  predicate NothingBefore(server: Server, files: seq<Option<string>>, s: Strategy, k: int)
    requires k <= |files|
  {
    forall j :: 0 <= j < k ==> FromImport(server, files[j], s) == ""
  }

  /** `importedFiles.forEach(...)` with the guard: the first imported document
      that yields a name decides. */
  function ScanImports(server: Server, files: seq<Option<string>>, s: Strategy): (r: string)
    ensures r == "" <==> NothingBefore(server, files, s, |files|)
    ensures r != "" ==>
      exists k :: 0 <= k < |files| && FromImport(server, files[k], s) == r && NothingBefore(server, files, s, k)
  {
    FirstImportDecides(server, files, s);
    FirstNonEmpty(ImportResults(server, files, s))
  }

  /** The scan finds nothing exactly when no import yields a name. */
  lemma FirstImportDecides(server: Server, files: seq<Option<string>>, s: Strategy)
    ensures FirstNonEmpty(ImportResults(server, files, s)) == "" <==> NothingBefore(server, files, s, |files|)
    ensures FirstNonEmpty(ImportResults(server, files, s)) != "" ==>
      exists k :: 0 <= k < |files| && NothingBefore(server, files, s, k)
        && FromImport(server, files[k], s) == FirstNonEmpty(ImportResults(server, files, s))
  {
    var xs := ImportResults(server, files, s);
    if FirstNonEmpty(xs) != "" {
      var k := FirstImportFound(server, files, s);
    } else {
      NothingImportedFound(server, files, s);
    }
  }

  lemma NothingImportedFound(server: Server, files: seq<Option<string>>, s: Strategy)
    requires FirstNonEmpty(ImportResults(server, files, s)) == ""
    ensures NothingBefore(server, files, s, |files|)
  {
    var xs := ImportResults(server, files, s);
    forall j | 0 <= j < |files| ensures FromImport(server, files[j], s) == "" {
      assert xs[j] == "";
    }
  }

  lemma FirstImportFound(server: Server, files: seq<Option<string>>, s: Strategy) returns (k: nat)
    requires FirstNonEmpty(ImportResults(server, files, s)) != ""
    ensures k < |files| && NothingBefore(server, files, s, k)
    ensures FromImport(server, files[k], s) == FirstNonEmpty(ImportResults(server, files, s))
  {
    var xs := ImportResults(server, files, s);
    k :| 0 <= k < |xs| && xs[k] == FirstNonEmpty(xs) && forall j :: 0 <= j < k ==> xs[j] == "";
    forall j | 0 <= j < k ensures FromImport(server, files[j], s) == "" {
      assert xs[j] == "";
    }
  }

  /** `getJiveComponent` for a given containing node (`rootParent`), corrected. */
  function IdentityOf(server: Server, files: seq<Option<string>>, container: Node): string {
    match container
    case ObjectExpression(props, typeName) =>
      var local := LocalType(props);
      if local != "" then local
      else
        var id := PropertyValue(props, LibraryComponentIdKey);
        var byId := if id != "" then ScanImports(server, files, ById(id)) else "";
        if byId != "" then byId else ScanImports(server, files, ByName(typeName))
    case _ => ""
  }

  /** `getJiveComponent(node, file)`: the node's parent is the container.
      Asked about the root, `infer.parentNode` throws. */
  function Resolve(server: Server, doc: Document, path: Path): (r: Outcome<string>)
    ensures r.Throws? <==> path == []
  {
    var up :- ParentPath(path);
    match NodeAt(doc.ast, up)
    case None => Ok("")
    case Some(container) => Ok(IdentityOf(server, GetImportFiles(doc.text), container))
  }

  // ---------------------------------------------------------------------------
  // Properties of the corrected resolver

  /** The result is a name some strategy actually found: the local `type`, or a
      `type` written in an imported document that is loaded. */
  lemma IdentityIsFound(server: Server, files: seq<Option<string>>, props: seq<Node>, typeName: string)
    ensures var r := IdentityOf(server, files, ObjectExpression(props, typeName));
      r != "" ==>
        || r == LocalType(props)
        || (exists k, s :: 0 <= k < |files| && files[k].Some?
             && ImportedDocument(server, files[k].value).Some?
             && InDocument(s, ImportedDocument(server, files[k].value).value) == r)
  {
    var r := IdentityOf(server, files, ObjectExpression(props, typeName));
    if r != "" && r != LocalType(props) {
      var id := PropertyValue(props, LibraryComponentIdKey);
      var s := if id != "" && ScanImports(server, files, ById(id)) != "" then ById(id) else ByName(typeName);
      assert ScanImports(server, files, s) == r;
      var k := ScanFindsImport(server, files, s);
    }
  }

  /** A name the scan finds was written in a loaded imported document. */
  lemma ScanFindsImport(server: Server, files: seq<Option<string>>, s: Strategy) returns (k: nat)
    requires ScanImports(server, files, s) != ""
    ensures k < |files| && files[k].Some? && ImportedDocument(server, files[k].value).Some?
    ensures InDocument(s, ImportedDocument(server, files[k].value).value) == ScanImports(server, files, s)
  {
    k :| 0 <= k < |files| && FromImport(server, files[k], s) == ScanImports(server, files, s) && NothingBefore(server, files, s, k);
  }

  /** Strategy 1 wins: a local `type` decides whatever the imports and the
      loaded documents say. */
  lemma LocalTypeWins(server1: Server, files1: seq<Option<string>>, server2: Server, files2: seq<Option<string>>, props: seq<Node>, typeName: string)
    requires LocalType(props) != ""
    ensures IdentityOf(server1, files1, ObjectExpression(props, typeName)) == LocalType(props)
    ensures IdentityOf(server1, files1, ObjectExpression(props, typeName))
         == IdentityOf(server2, files2, ObjectExpression(props, typeName))
  {
  }

  /** Strategy 2 beats strategy 3: when the `libraryComponentId` lookup finds
      a name, the type name of the object plays no part. */
  lemma LibraryIdBeatsTypeName(server: Server, files: seq<Option<string>>, props: seq<Node>, typeName: string)
    requires LocalType(props) == ""
    requires PropertyValue(props, LibraryComponentIdKey) != ""
    requires ScanImports(server, files, ById(PropertyValue(props, LibraryComponentIdKey))) != ""
    ensures IdentityOf(server, files, ObjectExpression(props, typeName))
         == ScanImports(server, files, ById(PropertyValue(props, LibraryComponentIdKey)))
  {
  }

  /** Strategy 3: without a local `type` and without a name from the
      `libraryComponentId` lookup, the object's inferred type name is looked up
      as a property key in the imported documents. */
  lemma TypeNameIsTheLastResort(server: Server, files: seq<Option<string>>, props: seq<Node>, typeName: string)
    requires LocalType(props) == ""
    requires PropertyValue(props, LibraryComponentIdKey) == ""
      || ScanImports(server, files, ById(PropertyValue(props, LibraryComponentIdKey))) == ""
    ensures IdentityOf(server, files, ObjectExpression(props, typeName)) == ScanImports(server, files, ByName(typeName))
  {
  }

  /** A property keyed by the type name whose value is an object literal with
      its own `type` yields that `type` to the strategy-3 walk, wherever it
      stands after nodes that contribute nothing. */
  lemma TypeNamePropertyIsFound(before: seq<Node>, name: string, props: seq<Node>, t: string, after: seq<Node>)
    requires forall i :: 0 <= i < |before| ==> Contribution(ByName(name), before[i]) == ""
    requires LocalType(props) != ""
    ensures FirstIn(ByName(name), before + [Property(Identifier(name), ObjectExpression(props, t))] + after)
      == LocalType(props)
  {
    var s := ByName(name);
    var nodes := before + [Property(Identifier(name), ObjectExpression(props, t))] + after;
    var k := |before|;
    assert Contribution(s, nodes[k]) == LocalType(props);
    var r := FirstIn(s, nodes);
    var i :| 0 <= i < |nodes| && Contribution(s, nodes[i]) == r
      && forall j :: 0 <= j < i ==> Contribution(s, nodes[j]) == "";
  }

  /** No strategy matches: the result is "". */
  lemma NothingFoundIsEmpty(server: Server, files: seq<Option<string>>, props: seq<Node>, typeName: string)
    requires LocalType(props) == ""
    requires PropertyValue(props, LibraryComponentIdKey) == ""
      || ScanImports(server, files, ById(PropertyValue(props, LibraryComponentIdKey))) == ""
    requires forall k :: 0 <= k < |files| ==>
      FromImport(server, files[k], ByName(typeName)) == ""
    ensures IdentityOf(server, files, ObjectExpression(props, typeName)) == ""
  {
  }

  /** First file wins: once the imports seen so far yield a name, further
      imported files cannot change it. */
  lemma {:induction false} LaterImportsCannotOverride(server: Server, files: seq<Option<string>>, more: seq<Option<string>>, s: Strategy)
    requires ScanImports(server, files, s) != ""
    ensures ScanImports(server, files + more, s) == ScanImports(server, files, s)
  {
    ImportResultsAppend(server, files, more, s);
    FirstNonEmptyAppend(ImportResults(server, files, s), ImportResults(server, more, s));
  }

  /** A malformed import line (no file token) has no effect on the corrected scan. */
  lemma {:induction false} MalformedImportIsSkipped(server: Server, a: seq<Option<string>>, b: seq<Option<string>>, s: Strategy)
    ensures ScanImports(server, a + [None] + b, s) == ScanImports(server, a + b, s)
  {
    var ra := ImportResults(server, a, s);
    var rb := ImportResults(server, b, s);
    ImportResultsAppend(server, a + [None], b, s);
    ImportResultsAppend(server, a, [None], s);
    ImportResultsAppend(server, a, b, s);
    assert ImportResults(server, [None], s) == [""];
    FirstNonEmptySkipsEmpty(ra, rb);
  }

  /** A node that contributes nothing (an assignment to a plain variable, say)
      has no effect on the corrected walk. */
  lemma {:induction false} InertNodeIsSkipped(s: Strategy, a: seq<Node>, n: Node, b: seq<Node>)
    requires Contribution(s, n) == ""
    ensures FirstIn(s, a + [n] + b) == FirstIn(s, a + b)
  {
    var ca := Contributions(s, a);
    var cb := Contributions(s, b);
    MapAppend(ContributionOf(s), a + [n], b);
    MapAppend(ContributionOf(s), a, [n]);
    MapAppend(ContributionOf(s), a, b);
    assert Contributions(s, [n]) == [""];
    FirstNonEmptySkipsEmpty(ca, cb);
  }

  // ---------------------------------------------------------------------------
  // The resolver as written

  /** The strategy-2 visitor as written: it reads `expr.left.property.type`
      without checking that the target is a member expression, and
      `expr.right.properties` without checking that the value is an object
      literal. */
  function ContributionAsWritten(id: string, n: Node): (r: Outcome<string>)
    ensures r.Ok? ==> r.value == Contribution(ById(id), n)
    ensures r.Throws? <==>
      && n.AssignmentExpression? && n.operator == "="
      && (!n.left.MemberExpression? || (n.left.property == Identifier(id) && !n.right.ObjectExpression?))
  {
    match n
    case AssignmentExpression(op, left, right) =>
      if op != "=" then Ok("")
      else if !left.MemberExpression? then Throws("expr.left.property is undefined")
      else if !(left.property.Identifier? && left.property.name == id) then Ok("")
      else if !right.ObjectExpression? then Throws("expr.right.properties is undefined")
      else Ok(LocalType(right.properties))
    case _ => Ok("")
  }

  /** The strategy-2 walk over nodes as written: visiting stops contributing
      once a name is found, and the first exception ends the request. */
  function FirstInAsWritten(id: string, nodes: seq<Node>): (r: Outcome<string>)
    decreases |nodes|
  {
    if nodes == [] then Ok("")
    else
      var c :- ContributionAsWritten(id, nodes[0]);
      if c != "" then Ok(c) else FirstInAsWritten(id, nodes[1..])
  }

  function InDocumentAsWritten(s: Strategy, d: Document): Outcome<string> {
    match s
    case ById(id) => FirstInAsWritten(id, PostOrder(d.ast))
    case ByName(_) => Ok(InDocument(s, d))
  }

  /** `importedFiles.forEach(...)` as written: `getFullPath` runs on every
      entry, found or not, and throws on a missing token; the walk runs only
      while nothing is found. */
  function ScanAsWritten(server: Server, files: seq<Option<string>>, s: Strategy, found: string): (r: Outcome<string>)
    ensures (exists k :: 0 <= k < |files| && files[k].None?) ==> r.Throws?
    decreases |files|
  {
    if files == [] then Ok(found)
    else
      match files[0]
      case None => Throws("getFullPath(undefined)")
      case Some(f) =>
        var next :- if found != "" then Ok(found)
          else match ImportedDocument(server, f)
            case None => Ok("")
            case Some(d) => InDocumentAsWritten(s, d);
        var r := ScanAsWritten(server, files[1..], s, next);
        assert forall k :: 1 <= k < |files| ==> files[k] == files[1..][k - 1];
        r
  }

  /** `getJiveComponent` for a given container, as written. */
  function IdentityOfAsWritten(server: Server, files: seq<Option<string>>, container: Node): Outcome<string> {
    match container
    case ObjectExpression(props, typeName) =>
      var local := LocalType(props);
      if local != "" then Ok(local)
      else
        var id := PropertyValue(props, LibraryComponentIdKey);
        var byId :- if id != "" then ScanAsWritten(server, files, ById(id), "") else Ok("");
        if byId != "" then Ok(byId) else ScanAsWritten(server, files, ByName(typeName), "")
    case _ => Ok("")
  }

  // ---------------------------------------------------------------------------
  // Relating the two versions

  lemma {:induction false} FirstInAsWrittenAgrees(id: string, nodes: seq<Node>)
    ensures var r := FirstInAsWritten(id, nodes);
      r.Ok? ==> r.value == FirstIn(ById(id), nodes)
    decreases |nodes|
  {
    if nodes != [] {
      var cs := Contributions(ById(id), nodes);
      var rest := Contributions(ById(id), nodes[1..]);
      assert cs == [cs[0]] + rest;
      FirstNonEmptyAppend([cs[0]], rest);
      FirstInAsWrittenAgrees(id, nodes[1..]);
    }
  }

  lemma {:induction false} ScanAsWrittenAgrees(server: Server, files: seq<Option<string>>, s: Strategy, found: string)
    ensures var r := ScanAsWritten(server, files, s, found);
      r.Ok? ==> r.value == (if found != "" then found else ScanImports(server, files, s))
    decreases |files|
  {
    if files != [] && files[0].Some? {
      var f := files[0].value;
      var xs := ImportResults(server, files, s);
      assert xs == [xs[0]] + ImportResults(server, files[1..], s);
      FirstNonEmptyAppend([xs[0]], ImportResults(server, files[1..], s));
      if found == "" {
        match ImportedDocument(server, f)
        case None =>
        case Some(d) =>
          match s
          case ById(id) => FirstInAsWrittenAgrees(id, PostOrder(d.ast));
          case ByName(_) =>
      }
      var next := if found != "" then Ok(found)
        else match ImportedDocument(server, f)
          case None => Ok("")
          case Some(d) => InDocumentAsWritten(s, d);
      if next.Ok? {
        ScanAsWrittenAgrees(server, files[1..], s, next.value);
      }
    }
  }

  /** Whenever the source returns a name, the corrected resolver returns the
      same name: the correction only changes inputs on which the source throws. */
  lemma AsWrittenAgreesWhenItReturns(server: Server, files: seq<Option<string>>, container: Node)
    ensures var r := IdentityOfAsWritten(server, files, container);
      r.Ok? ==> r.value == IdentityOf(server, files, container)
  {
    if container.ObjectExpression? {
      var id := PropertyValue(container.properties, LibraryComponentIdKey);
      if id != "" {
        ScanAsWrittenAgrees(server, files, ById(id), "");
      }
      ScanAsWrittenAgrees(server, files, ByName(container.typeName), "");
    }
  }

  /** Finding 1, as written: one malformed import line makes every lookup in
      imported documents throw, even one that the first import answers. */
  lemma MalformedImportThrowsAsWritten(server: Server, first: string, typeName: string, rest: string)
    requires first != "" && Free(first, {' '} + LineTerminators)
    requires Free(rest, LineTerminators)
    ensures var text := ImportDirective + first + "\n" + ImportDirective + " " + rest;
      && GetImportFiles(text) == [Some(first), None]
      && IdentityOfAsWritten(server, GetImportFiles(text), ObjectExpression([], typeName)).Throws?
  {
    var text := ImportDirective + first + "\n" + ImportDirective + " " + rest;
    assert text == (ImportDirective + first) + "\n" + (ImportDirective + " " + rest);
    ImportFilesAppend(ImportDirective + first, ImportDirective + " " + rest);
    ImportFilesOfOneLine(first);
    MalformedImportLine(rest);
    assert GetImportFiles(text)[1].None?;
  }

  /** Finding 1, corrected: the malformed line is skipped, so the lookup gives
      what the well-formed import alone gives. */
  lemma MalformedImportIgnored(server: Server, first: string, typeName: string, rest: string)
    requires first != "" && Free(first, {' '} + LineTerminators)
    requires Free(rest, LineTerminators)
    ensures var text := ImportDirective + first + "\n" + ImportDirective + " " + rest;
      IdentityOf(server, GetImportFiles(text), ObjectExpression([], typeName))
        == ScanImports(server, [Some(first)], ByName(typeName))
  {
    var text := ImportDirective + first + "\n" + ImportDirective + " " + rest;
    assert text == (ImportDirective + first) + "\n" + (ImportDirective + " " + rest);
    ImportFilesAppend(ImportDirective + first, ImportDirective + " " + rest);
    ImportFilesOfOneLine(first);
    MalformedImportLine(rest);
    assert GetImportFiles(text) == [Some(first)] + [None] + [];
    MalformedImportIsSkipped(server, [Some(first)], [], ByName(typeName));
  }

  /** Finding 2, as written: while no name is found, an assignment to a plain
      variable (`x = ...`) makes the strategy-2 walk throw. */
  lemma PlainAssignmentThrowsAsWritten(id: string, x: string, value: Node, rest: seq<Node>)
    ensures FirstInAsWritten(id, [AssignmentExpression("=", Identifier(x), value)] + rest).Throws?
  {
  }

  /** Finding 2, corrected: such an assignment is passed over. */
  lemma PlainAssignmentIgnored(id: string, x: string, value: Node, before: seq<Node>, after: seq<Node>)
    ensures FirstIn(ById(id), before + [AssignmentExpression("=", Identifier(x), value)] + after)
         == FirstIn(ById(id), before + after)
  {
    InertNodeIsSkipped(ById(id), before, AssignmentExpression("=", Identifier(x), value), after);
  }
}

=== FILE: schema.dfy ===
/** The component schema as Tern holds it after loading the plugin's definitions.

    Every component definition (`Widget`, `Button`, ...) is an object whose members
    are named groups of entries: `properties`, `defaultSettings`, `prototype`, and
    constant tables such as `SIZE`. A definition may name a parent with `!proto`.
    Tern's `forAllPropertiesOf` visits an object's own members and then those of
    its prototypes; the objects built for groups and entries have Tern's model of
    `Object.prototype` as their prototype, so a walk over a group ends with its
    members. Enumeration order is the order of the definition text, hence
    sequences rather than maps.
 */
module Schema {
  import opened Wrappers
  import opened Syntax

  /** The inferred type of an entry; `name` is empty when the type has no name. */
  datatype TypeRef = TypeRef(name: string)

  /** One definition entry: `!type`, `!doc`, the optional `!data` reference to a
      constant table, and the entries of an object-valued entry. */
  datatype Entry = Entry(name: string, ty: Option<TypeRef>, doc: string, data: Option<string>, members: seq<Entry>)

  /** A named group of entries that is an own member of a definition. */
  datatype Bag = Bag(key: string, entries: seq<Entry>)

  datatype Definition = Definition(proto: Option<string>, bags: seq<Bag>)

  /** `cx.definitions.jive` in enumeration order (`order`), the CSS style table,
      and the members of `Object.prototype`. */
  datatype Registry = Registry(
    order: seq<string>,
    defs: map<string, Definition>,
    css: seq<Entry>,
    objectPrototype: seq<Entry>)

  /** One call of a `forAllPropertiesOf` callback: the entry and whether its owner
      is `Object.prototype`. */
  datatype Slot = Slot(entry: Entry, onObjectPrototype: bool)

  /** `obj.props[key]` for an own group of a definition. */
  function OwnBag(d: Definition, key: string): (r: Option<seq<Entry>>)
    ensures r.Some? <==> exists i :: 0 <= i < |d.bags| && d.bags[i].key == key
    ensures r.Some? ==> exists i :: 0 <= i < |d.bags| && d.bags[i].key == key && d.bags[i].entries == r.value
    decreases |d.bags|
  {
    if |d.bags| == 0 then None
    else if d.bags[0].key == key then Some(d.bags[0].entries)
    else
      var r := OwnBag(Definition(d.proto, d.bags[1..]), key);
      assert forall i :: 1 <= i < |d.bags| ==> d.bags[i] == d.bags[1..][i - 1];
      r
  }

  /** The definitions met when following `!proto` from `name`, most-derived first,
      taking at most `fuel` steps. The walk ends at a definition without a parent,
      at a parent name that is not defined, or when the fuel runs out. */
  function ChainFrom(reg: Registry, name: string, fuel: nat): (chain: seq<string>)
    ensures |chain| <= fuel
    ensures forall i :: 0 <= i < |chain| ==> chain[i] in reg.defs
    ensures |chain| > 0 <==> fuel > 0 && name in reg.defs
    ensures |chain| > 0 ==> chain[0] == name
    ensures forall i :: 0 <= i < |chain| - 1 ==> reg.defs[chain[i]].proto == Some(chain[i + 1])
    ensures 0 < |chain| < fuel ==>
      var last := reg.defs[chain[|chain| - 1]];
      last.proto.None? || last.proto.value !in reg.defs
    decreases fuel
  {
    if fuel == 0 || name !in reg.defs then []
    else
      match reg.defs[name].proto
      case None => [name]
      case Some(p) =>
        var rest := ChainFrom(reg, p, fuel - 1);
        assert forall i :: 1 <= i < |rest| + 1 ==> ([name] + rest)[i] == rest[i - 1];
        [name] + rest
  }

  /** `group[name]` in the raw definition text: the first entry with that name. */
  function EntryNamed(entries: seq<Entry>, name: string): (r: Option<Entry>)
    ensures r.None? <==> forall i :: 0 <= i < |entries| ==> entries[i].name != name
    ensures r.Some? ==> r.value.name == name && r.value in entries
    decreases |entries|
  {
    if entries == [] then None
    else if entries[0].name == name then Some(entries[0])
    else
      var r := EntryNamed(entries[1..], name);
      assert forall i :: 1 <= i < |entries| ==> entries[i] == entries[1..][i - 1];
      r
  }

  /** The proto chain of a component. An acyclic chain never visits a definition
      twice, so as many steps as there are definitions cover it. */
  function ProtoChain(reg: Registry, name: string): seq<string> {
    ChainFrom(reg, name, |reg.defs|)
  }

  /** The own groups named `key` along a chain, most-derived first. */
  function BagsAlong(reg: Registry, chain: seq<string>, key: string): (bags: seq<seq<Entry>>)
    requires forall i :: 0 <= i < |chain| ==> chain[i] in reg.defs
    ensures |bags| <= |chain|
    decreases |chain|
  {
    if chain == [] then []
    else
      (match OwnBag(reg.defs[chain[0]], key) case Some(es) => [es] case None => [])
      + BagsAlong(reg, chain[1..], key)
  }

  /** `forAllPropertiesOf` over a group: its own entries, then `Object.prototype`'s. */
  function BagSlots(reg: Registry, entries: seq<Entry>): (slots: seq<Slot>)
    ensures |slots| == |entries| + |reg.objectPrototype|
    ensures forall i :: 0 <= i < |entries| ==> slots[i] == Slot(entries[i], false)
    ensures forall i :: |entries| <= i < |slots| ==> slots[i] == Slot(reg.objectPrototype[i - |entries|], true)
  {
    seq(|entries|, i requires 0 <= i < |entries| => Slot(entries[i], false))
    + seq(|reg.objectPrototype|, i requires 0 <= i < |reg.objectPrototype| => Slot(reg.objectPrototype[i], true))
  }

  function SlotsOfBags(reg: Registry, bags: seq<seq<Entry>>): seq<Slot>
    decreases |bags|
  {
    if bags == [] then [] else BagSlots(reg, bags[0]) + SlotsOfBags(reg, bags[1..])
  }

  /** Walking a chain in two pieces finds the groups of walking it whole. */
  lemma {:induction false} BagsAlongAppend(reg: Registry, a: seq<string>, b: seq<string>, key: string)
    requires forall i :: 0 <= i < |a| ==> a[i] in reg.defs
    requires forall i :: 0 <= i < |b| ==> b[i] in reg.defs
    ensures forall i :: 0 <= i < |a + b| ==> (a + b)[i] in reg.defs
    ensures BagsAlong(reg, a + b, key) == BagsAlong(reg, a, key) + BagsAlong(reg, b, key)
    decreases |a|
  {
    if a != [] {
      assert (a + b)[0] == a[0] && (a + b)[1..] == a[1..] + b;
      BagsAlongAppend(reg, a[1..], b, key);
    } else {
      assert a + b == b;
    }
  }

  /** The slots of two runs of groups are the slots of the first, then of the second. */
  lemma {:induction false} SlotsOfBagsAppend(reg: Registry, a: seq<seq<Entry>>, b: seq<seq<Entry>>)
    ensures SlotsOfBags(reg, a + b) == SlotsOfBags(reg, a) + SlotsOfBags(reg, b)
    decreases |a|
  {
    if a != [] {
      assert (a + b)[0] == a[0] && (a + b)[1..] == a[1..] + b;
      SlotsOfBagsAppend(reg, a[1..], b);
    } else {
      assert a + b == b;
    }
  }

  /** The groups along a chain around its `k`-th definition, which has one. */
  lemma BagsAround(reg: Registry, chain: seq<string>, group: string, k: nat)
    requires forall i :: 0 <= i < |chain| ==> chain[i] in reg.defs
    requires k < |chain| && OwnBag(reg.defs[chain[k]], group).Some?
    ensures BagsAlong(reg, chain, group)
      == BagsAlong(reg, chain[..k], group) + [OwnBag(reg.defs[chain[k]], group).value] + BagsAlong(reg, chain[k + 1..], group)
  {
    var rest := chain[k + 1..];
    assert chain == chain[..k] + ([chain[k]] + rest);
    BagsAlongAppend(reg, chain[..k], [chain[k]] + rest, group);
    assert ([chain[k]] + rest)[0] == chain[k] && ([chain[k]] + rest)[1..] == rest;
  }

  /** The slots of a run of groups split around one of them. */
  lemma SlotsAround(reg: Registry, pre: seq<seq<Entry>>, own: seq<Entry>, after: seq<seq<Entry>>)
    ensures SlotsOfBags(reg, pre + [own] + after) == SlotsOfBags(reg, pre) + BagSlots(reg, own) + SlotsOfBags(reg, after)
  {
    assert pre + [own] + after == pre + ([own] + after);
    SlotsOfBagsAppend(reg, pre, [own] + after);
    assert ([own] + after)[0] == own && ([own] + after)[1..] == after;
  }

  /** `forAllPropertiesOf(definition, (prop, obj) => prop === key && forAllPropertiesOf(obj.props[prop], f))`:
      the callbacks `f` receives when a component's groups named `key` are walked
      along its proto chain. */
  function ChainSlots(reg: Registry, name: string, key: string): seq<Slot> {
    SlotsOfBags(reg, BagsAlong(reg, ProtoChain(reg, name), key))
  }

  /** The type the source ends up with when it overwrites `type` at every entry
      matching `key`: the type of the last matching slot, or `acc` when none
      matches. */
  function LastDeclaredType(slots: seq<Slot>, key: Node, acc: Option<TypeRef>): (r: Option<TypeRef>)
    ensures (forall i :: 0 <= i < |slots| ==> !KeyIs(key, slots[i].entry.name)) ==> r == acc
    ensures (exists i :: 0 <= i < |slots| && KeyIs(key, slots[i].entry.name)) ==>
      exists i :: 0 <= i < |slots| && KeyIs(key, slots[i].entry.name) && r == slots[i].entry.ty
        && forall j :: i < j < |slots| ==> !KeyIs(key, slots[j].entry.name)
    decreases |slots|
  {
    if slots == [] then acc
    else
      var next := if KeyIs(key, slots[0].entry.name) then slots[0].entry.ty else acc;
      var r := LastDeclaredType(slots[1..], key, next);
      assert forall i :: 1 <= i < |slots| ==> slots[i] == slots[1..][i - 1];
      if exists i :: 0 <= i < |slots[1..]| && KeyIs(key, slots[1..][i].entry.name) then
        var i :| 0 <= i < |slots[1..]| && KeyIs(key, slots[1..][i].entry.name) && r == slots[1..][i].entry.ty
          && forall j :: i < j < |slots[1..]| ==> !KeyIs(key, slots[1..][j].entry.name);
        assert forall j :: i + 1 < j < |slots| ==> !KeyIs(key, slots[j].entry.name);
        r
      else
        r
  }
}

=== FILE: strings.dfy ===
/** String primitives the plugin borrows from JavaScript: `indexOf(w) === 0`,
    `split` on one-character separators, `toLowerCase` and a global `replace`
    of one character by another.
 */
module Strings {

  /** `s.indexOf(prefix) === 0`: the empty prefix starts every string. */
  predicate StartsWith(s: string, prefix: string) {
    |prefix| <= |s| && s[..|prefix|] == prefix
  }

  /** No character of `s` is one of `seps`. */
  predicate Free(s: string, seps: set<char>) {
    forall k :: 0 <= k < |s| ==> s[k] !in seps
  }

  /** The pieces of `s` between separator characters, as `s.split(c)` returns them
      for a one-character separator `c` (with `seps == {c}`); a set of separators
      splits at any of them, which is how a multiline regular expression sees lines. */
  function Split(s: string, seps: set<char>): (parts: seq<string>)
    ensures |parts| >= 1
    ensures forall i :: 0 <= i < |parts| ==> Free(parts[i], seps)
    decreases |s|
  {
    if |s| == 0 then [""]
    else
      var rest := Split(s[1..], seps);
      if s[0] in seps then [""] + rest
      else [[s[0]] + rest[0]] + rest[1..]
  }

  /** `parts.join(c)`. */
  function Join(parts: seq<string>, c: char): string
    decreases |parts|
  {
    if |parts| == 0 then ""
    else if |parts| == 1 then parts[0]
    else parts[0] + [c] + Join(parts[1..], c)
  }

  function Last(parts: seq<string>): string
    requires |parts| >= 1
  {
    parts[|parts| - 1]
  }

  /** Splitting on one separator and joining with it gives the string back. */
  lemma {:induction false} SplitJoin(s: string, c: char)
    ensures Join(Split(s, {c}), c) == s
    decreases |s|
  {
    if |s| > 0 {
      var rest := Split(s[1..], {c});
      SplitJoin(s[1..], c);
      if s[0] == c {
        assert Split(s, {c}) == [""] + rest;
        assert ([""] + rest)[1..] == rest;
      } else {
        var parts := Split(s, {c});
        assert parts == [[s[0]] + rest[0]] + rest[1..];
        if |rest| == 1 {
          assert s == [s[0]] + s[1..];
        } else {
          assert parts[1..] == rest[1..];
          assert Join(rest, c) == rest[0] + [c] + Join(rest[1..], c);
          assert s == [s[0]] + s[1..];
        }
      }
    }
  }

  /** A separator splits the text into the pieces before it followed by the pieces after it. */
  lemma {:induction false} SplitAppend(a: string, c: char, b: string, seps: set<char>)
    requires c in seps
    ensures Split(a + [c] + b, seps) == Split(a, seps) + Split(b, seps)
    decreases |a|
  {
    if |a| == 0 {
      SplitCons(c, b, seps);
      assert a + [c] + b == [c] + b;
    } else {
      var x, t := a[0], a[1..];
      assert a + [c] + b == [x] + (t + [c] + b);
      assert a == [x] + t;
      SplitAppend(t, c, b, seps);
      SplitCons(x, t + [c] + b, seps);
      SplitCons(x, t, seps);
    }
  }

  /** Splitting a string that starts with `x`: a separator starts a new piece,
      any other character goes to the front of the first piece. */
  lemma SplitCons(x: char, t: string, seps: set<char>)
    ensures Split([x] + t, seps) ==
      if x in seps then [""] + Split(t, seps)
      else [[x] + Split(t, seps)[0]] + Split(t, seps)[1..]
  {
    assert ([x] + t)[1..] == t;
  }

  /** `l` is the suffix of `s` after its last separator: a suffix that is the
      whole string or follows a separator. */
  predicate SuffixAfterSeparator(s: string, l: string, seps: set<char>) {
    |l| <= |s| && l == s[|s| - |l|..] && (|l| == |s| || s[|s| - |l| - 1] in seps)
  }

  /** Such a suffix stays one after a character in front, unless it was the
      whole string and the new character is no separator. */
  lemma SuffixAfterSeparatorCons(x: char, t: string, l: string, seps: set<char>)
    requires SuffixAfterSeparator(t, l, seps) && (|l| < |t| || x in seps)
    ensures SuffixAfterSeparator([x] + t, l, seps)
  {
    var s := [x] + t;
    assert s[|s| - |l|..] == t[|t| - |l|..];
    if |l| < |t| {
      assert s[|s| - |l| - 1] == t[|t| - |l| - 1];
    }
  }

  /** What the last piece of a split of `s` is: the suffix after the last
      separator, the whole string exactly when there is no other piece. */
  predicate LastPieceIsSuffix(s: string, seps: set<char>) {
    var parts := Split(s, seps);
    && SuffixAfterSeparator(s, Last(parts), seps)
    && (|parts| == 1 ==> Last(parts) == s)
    && (|parts| > 1 ==> |Last(parts)| < |s|)
  }

  /** The inductive step of `SplitLast`: a character in front keeps the property. */
  lemma LastPieceCons(s: string, seps: set<char>)
    requires |s| > 0 && LastPieceIsSuffix(s[1..], seps)
    ensures LastPieceIsSuffix(s, seps)
  {
    var x, t := s[0], s[1..];
    assert s == [x] + t;
    SplitCons(x, t, seps);
    var rest := Split(t, seps);
    if x in seps || |rest| > 1 {
      assert Last(Split([x] + t, seps)) == Last(rest);
      SuffixAfterSeparatorCons(x, t, Last(rest), seps);
    }
  }

  /** The last piece of a split is the suffix after the last separator (the whole
      string when there is none). */
  lemma {:induction false} SplitLast(s: string, seps: set<char>)
    ensures SuffixAfterSeparator(s, Last(Split(s, seps)), seps)
    ensures |Split(s, seps)| == 1 ==> Last(Split(s, seps)) == s
    ensures |Split(s, seps)| > 1 ==> |Last(Split(s, seps))| < |s|
    decreases |s|
  {
    if |s| > 0 {
      SplitLast(s[1..], seps);
      LastPieceCons(s, seps);
    }
  }

  /** Text without separators is one piece. */
  lemma {:induction false} SplitFree(s: string, seps: set<char>)
    requires Free(s, seps)
    ensures Split(s, seps) == [s]
    decreases |s|
  {
    if |s| > 0 {
      SplitFree(s[1..], seps);
      assert s == [s[0]] + s[1..];
    }
  }

  /** Text that starts with a separator-free head and a separator splits into the
      head followed by the pieces of the rest. */
  lemma SplitAfterHead(head: string, c: char, rest: string, seps: set<char>)
    requires c in seps && Free(head, seps)
    ensures Split(head + [c] + rest, seps) == [head] + Split(rest, seps)
  {
    SplitAppend(head, c, rest, seps);
    SplitFree(head, seps);
  }

  /** The first piece is the text up to the first separator. */
  lemma {:induction false} SplitFirst(s: string, seps: set<char>)
    ensures var w := Split(s, seps)[0];
      StartsWith(s, w) && (|w| == |s| || s[|w|] in seps)
    decreases |s|
  {
    if |s| > 0 && s[0] !in seps {
      SplitFirst(s[1..], seps);
      var r := Split(s[1..], seps)[0];
      assert Split(s, seps)[0] == [s[0]] + r;
      assert s == [s[0]] + s[1..];
    }
  }

  /** Pieces keep every property "has no character of `other`" of the whole text. */
  lemma {:induction false} SplitKeepsFree(s: string, seps: set<char>, other: set<char>)
    requires Free(s, other)
    ensures forall i :: 0 <= i < |Split(s, seps)| ==> Free(Split(s, seps)[i], other)
    decreases |s|
  {
    if |s| > 0 {
      SplitKeepsFree(s[1..], seps, other);
      var rest := Split(s[1..], seps);
      if s[0] !in seps {
        assert Split(s, seps) == [[s[0]] + rest[0]] + rest[1..];
      }
    }
  }

  /** `toLowerCase` on ASCII letters; other characters are kept. */
  function LowerChar(c: char): char {
    if 'A' <= c <= 'Z' then (c as int + 32) as char else c
  }

  function Lower(s: string): (r: string)
    ensures |r| == |s|
    ensures forall i :: 0 <= i < |s| ==> r[i] == LowerChar(s[i])
  {
    seq(|s|, i requires 0 <= i < |s| => LowerChar(s[i]))
  }

  /** `s.replace(/x/g, y)` for single characters `x` and `y`. */
  function ReplaceAll(s: string, x: char, y: char): (r: string)
    ensures |r| == |s|
    ensures forall i :: 0 <= i < |s| ==> r[i] == (if s[i] == x then y else s[i])
  {
    seq(|s|, i requires 0 <= i < |s| => if s[i] == x then y else s[i])
  }
}

=== FILE: syntax.dfy ===
/** The slice of the JavaScript syntax tree the plugin inspects.

    The parser and the type inferencer are outside the model. A node is addressed
    by its path from the root (the indices of the children taken); Tern's
    `infer.parentNode` is then the path without its last step. The inferencer's
    name for the type of an object literal (`objType.name`) is carried by the
    `ObjectExpression` node.
 */
module Syntax {
  import opened Wrappers

  datatype Node =
    | Identifier(name: string)
      /** `str` is the string of a string literal; `None` for number, boolean,
          null and regular-expression literals. */
    | Literal(str: Option<string>)
    | ThisExpression
    | Property(key: Node, value: Node)
    | ObjectExpression(properties: seq<Node>, typeName: string)
    | MemberExpression(obj: Node, property: Node)
    | AssignmentExpression(operator: string, left: Node, right: Node)
    | FunctionExpression(body: seq<Node>)
      /** Any other construct (program, statement, call, array, ...), by its children. */
    | OtherNode(children: seq<Node>)

  type Path = seq<nat>

  /** The children of a node, in source order. */
  function Children(n: Node): (cs: seq<Node>)
    ensures forall c :: c in cs ==> c < n
  {
    match n
    case Property(k, v) => [k, v]
    case ObjectExpression(ps, _) => ps
    case MemberExpression(o, p) => [o, p]
    case AssignmentExpression(_, l, r) => [l, r]
    case FunctionExpression(body) => body
    case OtherNode(cs) => cs
    case _ => []
  }

  /** The node a path leads to, if it leads anywhere. */
  function NodeAt(root: Node, path: Path): Option<Node>
    decreases |path|
  {
    if path == [] then Some(root)
    else
      var cs := Children(root);
      if path[0] < |cs| then NodeAt(cs[path[0]], path[1..]) else None
  }

  /** `infer.parentNode`: the enclosing node. Asked about the root, Tern's search
      finds no parent and rethrows the object it threw to stop the walk. */
  function ParentPath(path: Path): (r: Outcome<Path>)
    ensures r.Ok? <==> |path| > 0
    ensures r.Ok? ==> path == r.value + [path[|path| - 1]]
  {
    if |path| == 0 then Throws("infer.parentNode of the root")
    else Ok(path[..|path| - 1])
  }

  /** The enclosing node of a node that exists is the node one step up, and the
      child is among its children. */
  lemma {:induction false} ParentOfExistingNode(root: Node, path: Path)
    requires |path| > 0 && NodeAt(root, path).Some?
    ensures var up := NodeAt(root, path[..|path| - 1]);
      && up.Some?
      && path[|path| - 1] < |Children(up.value)|
      && Children(up.value)[path[|path| - 1]] == NodeAt(root, path).value
    decreases |path|
  {
    if |path| > 1 {
      var cs := Children(root);
      assert path[1..][..|path[1..]| - 1] == path[..|path| - 1][1..];
      ParentOfExistingNode(cs[path[0]], path[1..]);
    }
  }

  /** The order in which `walk.simple` calls its visitors: children first, in
      source order, then the node itself. */
  function PostOrder(n: Node): (order: seq<Node>)
    ensures |order| >= 1 && order[|order| - 1] == n
    decreases n, 1
  {
    PostOrderAll(n, Children(n)) + [n]
  }

  function PostOrderAll(ghost parent: Node, ns: seq<Node>): seq<Node>
    requires forall c :: c in ns ==> c < parent
    decreases parent, 0, |ns|
  {
    if ns == [] then []
    else
      assert ns[0] in ns;
      assert forall c :: c in ns[1..] ==> c in ns;
      PostOrder(ns[0]) + PostOrderAll(parent, ns[1..])
  }

  /** `key.name === s || key.value === s`. */
  predicate KeyIs(key: Node, s: string) {
    match key
    case Identifier(n) => n == s
    case Literal(Some(v)) => v == s
    case _ => false
  }

  /** `key.name || key.value` where a string comes out; `None` where the source
      gets `undefined` or a non-string value. */
  function KeyName(key: Node): (r: Option<string>)
    ensures r.Some? ==> KeyIs(key, r.value)
  {
    match key
    case Identifier(n) => if n != "" then Some(n) else None
    case Literal(Some(v)) => Some(v)
    case _ => None
  }

  /** `node.value` read as a component name: the string of a string literal, and
      the empty (falsy) string for anything else. */
  function StringValue(n: Node): string {
    match n
    case Literal(Some(s)) => s
    case _ => ""
  }
}

=== FILE: words.dfy ===
/** The word under the cursor and the offset shift of the JSON dialect
    (jive.js lines 31, 111-114, 134-146 and 196-199).

    A definition file whose name ends in `.json` holds a bare object literal. To
    let the JavaScript parser read it, the parse hook puts a fixed assignment
    target in front of the text; syntax-tree offsets in such a file are therefore
    larger, by the length of that prefix, than offsets in the editor's text.
 */
module Words {
  import opened Paths

  /** `acorn.isIdentifierChar` on ASCII: letters, digits, `$` and `_`. */
  predicate IsIdentifierChar(c: char) {
    c == '$' || c == '_' || ('0' <= c <= '9') || ('A' <= c <= 'Z') || ('a' <= c <= 'z')
  }

  /** The loop of `findCompletions`: step left from the cursor over identifier
      characters. The word typed so far is `text[wordStart..wordEnd]`; it is
      made of identifier characters only and cannot be extended to the left. */
  method FindWordStart(text: string, wordEnd: nat) returns (wordStart: nat)
    requires wordEnd <= |text|
    ensures wordStart <= wordEnd
    ensures forall i :: wordStart <= i < wordEnd ==> IsIdentifierChar(text[i])
    ensures wordStart == 0 || !IsIdentifierChar(text[wordStart - 1])
  {
    wordStart := wordEnd;
    while wordStart > 0 && IsIdentifierChar(text[wordStart - 1])
      invariant wordStart <= wordEnd
      invariant forall i :: wordStart <= i < wordEnd ==> IsIdentifierChar(text[i])
      decreases wordStart
    {
      wordStart := wordStart - 1;
    }
  }

  /** `INJECT_VARIABLE_DECLARATION`. */
  const InjectVariableDeclaration: string := "_DP.Definition.Library.__$="

  /** The `preParse` hook: the text the parser reads for a file of this name. */
  function PreParse(fileName: string, text: string): string {
    if IsJsonFile(fileName) then InjectVariableDeclaration + text else text
  }

  /** `findJiveExpression`'s compensation: the syntax-tree offset of an editor offset. */
  function AstOffset(fileName: string, offset: nat): (r: nat)
    ensures IsJsonFile(fileName) ==> r == offset + 27
    ensures !IsJsonFile(fileName) ==> r == offset
  {
    if IsJsonFile(fileName) then offset + |InjectVariableDeclaration| else offset
  }

  /** The compensated offset points at the same character of the parsed text as
      the editor offset does in the editor text, and what precedes it in the parsed
      text is the injected prefix (if any) followed by what precedes it in the
      editor text. */
  lemma AstOffsetMatchesPreParse(fileName: string, text: string, offset: nat)
    requires offset <= |text|
    ensures var parsed := PreParse(fileName, text);
      var p := AstOffset(fileName, offset);
      && p <= |parsed|
      && parsed[p..] == text[offset..]
      && parsed[..p] == (if IsJsonFile(fileName) then InjectVariableDeclaration else "") + text[..offset]
  {
    if IsJsonFile(fileName) {
      var parsed := InjectVariableDeclaration + text;
      var n := |InjectVariableDeclaration|;
      assert parsed[n + offset..] == text[offset..];
      assert parsed[..n + offset] == InjectVariableDeclaration + text[..offset];
    }
  }
}

=== FILE: wrappers.dfy ===
/** Optional values and the outcome of a computation that may throw.

    The plugin is JavaScript: several of its property reads raise a TypeError when
    the object read from is `undefined`. Such an exception leaves the completion
    request without a result, so every member that can reach one returns an
    `Outcome` and names the failing read in `Throws`.
 */
module Wrappers {

  datatype Option<+T> = None | Some(value: T)

  datatype Outcome<+T> = Ok(value: T) | Throws(error: string) {

    predicate IsFailure() {
      Throws?
    }

    function PropagateFailure<U>(): Outcome<U>
      requires Throws?
    {
      Throws(error)
    }

    function Extract(): T
      requires Ok?
    {
      value
    }
  }
}
